=== FILE: README.md ===
# FitMirror virtual try-on: a verified model

FitMirror lets a user photograph themselves from four angles (front, back, left, right).
The user then supplies a garment, as an uploaded image or an image URL, and receives one
generated try-on image per angle. This project models the core of that system in Dafny
and proves properties of the model. It covers:

- **The try-on request handler** (`POST /api/tryon`, module `TryOn`). It validates the
  request, normalises HEIC photos to JPEG, and chooses the garment image (the upload, or
  a fetch of the URL). Then, for each present angle in the fixed order, it calls the
  try-on model, works out which of the model's output shapes it received, re-fetches an
  http result, and records an entry. A failure is confined to its own angle.
  - Module `Heic` holds the HEIC detection and conversion.
  - Module `DataUri` strips the data-URI prefix (`/^data:image\/[^;]+;base64,(.+)$/`).
  - Module `ModelOutput` resolves the model's output and reassembles a streamed output:
    chunk collection stops at the first string, and the chunks are concatenated into one
    buffer.
  - Modules `Text` and `Bytes` provide the string and byte helpers that these need:
    `includes`, `startsWith`, decimal rendering, hex, and base64 as an abstract codec.
- **The client-side stores** (module `Db`). A photo store is keyed by `angle`, and a
  results store keeps one record under `"latest"`. Each is a class whose `records` map
  is the database content. The photo store has save, get, get-all and clear methods. The
  results store has only save and get.
- **The three pages as state machines**, each a class with the page's state as fields
  and a method per handler:
  - onboarding (`Onboarding`): four photo slots, progress, and Continue;
  - upload (`Upload`): the product URL and the uploaded image are mutually exclusive,
    and Generate builds and sends the request;
  - results (`Results`): a carousel with JavaScript `%` wrap-around, and download.

Everything outside the program is a parameter:

- the try-on model, the HEIC transcoder, `fetch`, `FileReader`, base64, the API token and
  `Date.now()`;
- for the handler, these are collected in `TryOn.Env`.

The model call and the re-fetch of a generated image are functions of the angle as well
as of their input. Each angle's call is therefore its own outcome, and isolation between
angles is a provable statement.

Where the code departs from the behaviour one would expect, the model follows the code:

- A product image fetched from a URL is not passed through the HEIC normaliser. Only the
  user photos and an uploaded product image are (app/api/tryon/route.ts:83-91, 115-119).
- A request carrying both an upload and a URL is accepted, and the upload is used.
- A generated-image re-fetch has no status check. A non-2xx body is encoded like any
  other; only a thrown fetch falls back to the photo.
- The results list has one entry for every present angle, including the angles whose
  model call failed. Failed angles carry the error marker.

## Model

| member | source | states |
|---|---|---|
| Text.ContainsIff | app/api/tryon/route.ts:16-20 | `includes` (the recursive `Contains`) holds exactly when the needle occurs at some index |
| Text.ContainsPrefixOfNeedle | app/api/tryon/route.ts:16-20 | a text containing a needle contains every prefix of it |
| Text.Contains | app/api/tryon/route.ts:16-20 | a needle longer than the text is never found, and the empty needle is always found |
| Text.Decimal | app/api/tryon/route.ts:102 | the rendering of `response.status` is a non-empty digit string without a leading zero |
| Text.DecimalRoundTrip | app/api/tryon/route.ts:102 | reading the decimal rendering back gives the status number |
| Bytes.Hex | app/api/tryon/route.ts:16 | `toString('hex')` gives two lower-case hex digits per byte, high nibble first |
| Bytes.HexAppend | app/api/tryon/route.ts:16 | hex of a concatenation is the concatenation of the hex strings |
| Bytes.HexRoundTrip | app/api/tryon/route.ts:16 | decoding the hex text gives back the bytes |
| DataUri.SemicolonIndex | app/api/tryon/route.ts:9 | the index of the first `;` (or the length), as `[^;]+` scans |
| DataUri.Parse | app/api/tryon/route.ts:9 | a match is `data:image/` + subtype (non-empty, no `;`) + `;base64,` + payload (non-empty, no line terminator) |
| DataUri.ParseComplete | app/api/tryon/route.ts:9 | every such string matches, with exactly that subtype and payload |
| DataUri.Payload | app/api/tryon/route.ts:10 | the base64 text is always a suffix of the input: the whole input, or what follows `;base64,` |
| DataUri.PayloadOfImageUri | app/api/tryon/route.ts:9-10 | the base64 taken from an image data URI is its payload |
| DataUri.PayloadOtherwise | app/api/tryon/route.ts:9-10 | without the image prefix or the `;base64,` marker, the whole input is taken as base64 |
| DataUri.PayloadUnmatched | app/api/tryon/route.ts:9-10 | any input the regex does not match is decoded whole, including ones with both the prefix and the marker |
| DataUri.PayloadWithParameter | app/api/tryon/route.ts:9-10 | `data:image/png;charset=x;base64,AAAA` is not matched, because `[^;]+` stops at the parameter, so it is decoded whole |
| DataUri.ToDataUriImage | app/api/tryon/route.ts:38 | a data URI built with an `image/` type has the shape the regex matches |
| DataUri.EncodedIsPayload | app/api/tryon/route.ts:36-38 | base64 of non-empty bytes is a payload the prefix regex accepts |
| Heic.Header | app/api/tryon/route.ts:16 | the header is the hex of at most the first 12 bytes, so at most 24 characters |
| Heic.IsHeic | app/api/tryon/route.ts:16-20 | a buffer detected as HEIC has at least 7 bytes (a 14-digit signature needs 7 header bytes) |
| Heic.ConvertHeicToJpeg | app/api/tryon/route.ts:6-47 | the result is the input or a JPEG data URI; non-HEIC input is returned unchanged; HEIC input that transcodes becomes `data:image/jpeg;base64,` + the base64 of the JPEG bytes |
| Heic.HeixSubsumed | app/api/tryon/route.ts:16-20 | the `ftypheix` test is implied by the `ftyphei` test |
| Heic.IsHeicWithoutHeix | app/api/tryon/route.ts:16-20 | detection with the `ftypheix` test dropped decides the same way |
| Heic.ShortInputIsNotHeic | app/api/tryon/route.ts:16-20 | fewer than 7 bytes are never taken for HEIC |
| Heic.FtypBrandIsHeic | app/api/tryon/route.ts:16-20 | a box with `ftyp` at bytes 4-7 and brand `hei`/`hev`/`hem` is detected |
| Heic.NibbleShiftedMatch | app/api/tryon/route.ts:16-20 | the text search is not byte-aligned: a header without byte 0x66 can still be detected |
| Heic.ConversionFailureKeepsInput | app/api/tryon/route.ts:41-46 | a failing transcoder leaves the input unchanged |
| Heic.ConvertEmpty | app/api/tryon/route.ts:9-24 | the empty string decodes to no bytes and stays empty |
| Heic.ConvertIdempotentWhenUnchanged | app/api/tryon/route.ts:22-25 | normalising again an input that came back unchanged changes nothing |
| Heic.ConvertIdempotentOnNonHeic | app/api/tryon/route.ts:22-25 | normalisation is idempotent on non-HEIC input |
| Heic.ConvertedDecodesToJpeg | app/api/tryon/route.ts:36-38 | a converted image's payload decodes to exactly the transcoder's JPEG bytes |
| App.Rank | app/api/tryon/route.ts:138 | each angle sits at its position in the fixed order front, back, left, right |
| App.NameInjective | app/api/tryon/route.ts:138 | distinct angles have distinct names, all among the four |
| ModelOutput.StopIndex | app/api/tryon/route.ts:179-188 | the position of the first string item or throw, or the length: nothing earlier stops the loop |
| ModelOutput.StopIndexUnique | app/api/tryon/route.ts:179-188 | that position is the only one with this property |
| ModelOutput.Chunks | app/api/tryon/route.ts:177-188 | at most one chunk per stream item |
| ModelOutput.ChunksAppend | app/api/tryon/route.ts:177-188 | collecting over two stretches of the stream gives the first stretch's chunks followed by the second's |
| ModelOutput.ChunksOfOne | app/api/tryon/route.ts:181-187 | a Uint8Array item contributes exactly its bytes, any other item nothing |
| ModelOutput.ScanStream | app/api/tryon/route.ts:177-188 | the loop never both finds a URL and throws, and collects at most one chunk per item |
| ModelOutput.Resolve | app/api/tryon/route.ts:168-214 | the angle fails only for a stream that throws before a string item; plain output resolves to its `output` or `url` field; no output resolves to nothing |
| ModelOutput.FieldsPreferOutput | app/api/tryon/route.ts:212 | a plain object gives `output.output` when truthy and `output.url` otherwise |
| ModelOutput.DirectIsUrl | app/api/tryon/route.ts:170-171 | a string output is the image URL unchanged |
| ModelOutput.EmptyStreamResolvesToNothing | app/api/tryon/route.ts:168-209 | a stream with no byte item, string or throw leaves `imageUrl` undefined |
| ModelOutput.EmptyChunksGiveEmptyJpeg | app/api/tryon/route.ts:191-207 | the test counts chunks, not bytes: chunks of total length 0 still give a JPEG data URI, of no bytes |
| ModelOutput.Flatten | app/api/tryon/route.ts:195-203 | the combined buffer is as long as the sum of the chunk lengths |
| ModelOutput.TotalLengthPrefix | app/api/tryon/route.ts:195-203 | the offset of a chunk never exceeds the total length |
| ModelOutput.ChunkPlacement | app/api/tryon/route.ts:197-203 | byte j of chunk i sits at offset (length of chunks before i) + j: arrival order is kept |
| ModelOutput.LaterItemsIgnored | app/api/tryon/route.ts:183-187 | nothing after the first string item or throw affects the result |
| ModelOutput.StringItemWins | app/api/tryon/route.ts:183-186 | a string item with no chunk before it becomes the image URL |
| ModelOutput.NoChunks | app/api/tryon/route.ts:177-188 | a stream without byte items collects no chunks |
| ModelOutput.StreamFaultThrows | app/api/tryon/route.ts:179 | a stream that throws before any string item makes the angle fail |
| ModelOutput.ChunksBecomeJpegUri | app/api/tryon/route.ts:190-207 | collected bytes become a JPEG data URI whose payload decodes to their concatenation |
| ModelOutput.CollectStream | app/api/tryon/route.ts:177-188 | the `for await` loop produces exactly the scan of the stream |
| ModelOutput.Combine | app/api/tryon/route.ts:194-203 | the offset loop fills a fresh buffer with the concatenation of the chunks |
| TryOn.PresentAngles | app/api/tryon/route.ts:138-143 | the visited angles are exactly those with a non-empty photo |
| TryOn.SelectProduct | app/api/tryon/route.ts:87-134 | a failure is always a 400 error; an uploaded image always succeeds; with neither image nor URL it fails |
| TryOn.FetchedProductIsDataUri | app/api/tryon/route.ts:115-119 | a 2xx fetch of the product URL yields its base64 body as a data URI typed by the blob, `image/jpeg` when untyped, with no HEIC normalisation |
| TryOn.ThrownFetchMessage | app/api/tryon/route.ts:121-127 | a throwing fetch answers 400 with the exception's message, or the default message when it has none |
| TryOn.FinalImageUrl | app/api/tryon/route.ts:218-237 | the recorded image is the photo, the model's truthy URL, or a fetched data URI, and never empty when the photo is not |
| TryOn.AngleEntry | app/api/tryon/route.ts:145-247 | the entry is labelled by the angle's name; an error entry carries the error marker and the photo |
| TryOn.Assemble | app/api/tryon/route.ts:137-248 | one entry per present angle, so never more than the angles visited |
| TryOn.AssembleSnoc | app/api/tryon/route.ts:142-248 | one more loop iteration appends the angle's entry when its photo is present and nothing otherwise |
| TryOn.Handle | app/api/tryon/route.ts:49-258 | errors are 400 or 500 only; a 200 reply holds one to four entries |
| TryOn.ValidationOrder | app/api/tryon/route.ts:53-74 | missing photos give 400 first, then a missing product gives 400, then a missing token gives 500 |
| TryOn.UploadWinsOverUrl | app/api/tryon/route.ts:89-91 | an uploaded image is used (normalised) and the URL is never fetched |
| TryOn.FailedProductFetch | app/api/tryon/route.ts:101-127 | a non-2xx product fetch gives 400 with the status and status text in the message |
| TryOn.FetchMessageHints | app/api/tryon/route.ts:102-110 | the message ends with the blocked hint iff 403, the not-found hint iff 404, the generic hint otherwise |
| TryOn.AssembleMatchesPresentAngles | app/api/tryon/route.ts:142-248 | the loop records one entry per present angle, each computed from that angle's photo |
| TryOn.PresentAnglesInOrder | app/api/tryon/route.ts:138-143 | the visited angles keep the fixed order |
| TryOn.ResultsFollowAngleOrder | app/api/tryon/route.ts:137-248 | the results hold at most four entries, one per present angle, in the fixed order, labelled by angle names |
| TryOn.PresentIffSubmitted | app/api/tryon/route.ts:143 | an angle is processed iff a non-empty photo was submitted under its name |
| TryOn.AngleFailureFallsBack | app/api/tryon/route.ts:239-246 | a throwing model call records the photo with the error marker |
| TryOn.OtherAnglesUnaffected | app/api/tryon/route.ts:142-248 | changing the model's outcome for one angle changes no other angle's entry |
| TryOn.AngleEntryRenderable | app/api/tryon/route.ts:235-246 | every entry carries its angle name and a non-empty image, and an error entry carries the photo |
| TryOn.HttpUrlReplaced | app/api/tryon/route.ts:218-233 | an http result is fetched again: a download becomes a data URI of its base64 body, typed `image/png` when the blob has no type; a throwing fetch gives the photo |
| TryOn.MissingUrlFallsBackToPhoto | app/api/tryon/route.ts:237 | without a truthy image URL the entry records the photo |
| TryOn.NonHttpUrlKept | app/api/tryon/route.ts:218-237 | a non-empty URL not starting with `http` is recorded as it is |
| TryOn.OkResponseShape | app/api/tryon/route.ts:250-258 | a 200 reply holds one to four entries, each with an angle name and an image |
| TryOn.EmptyResultsIs500 | app/api/tryon/route.ts:250-255 | after validation and product selection succeed, 500 is returned iff no angle is present |
| TryOn.ConvertPhotos | app/api/tryon/route.ts:82-85 | every submitted photo is normalised under its own key |
| TryOn.ProcessAngles | app/api/tryon/route.ts:142-248 | the angle loop builds exactly the assembled results over front, back, left, right |
| TryOn.ProcessAngle | app/api/tryon/route.ts:145-247 | one loop iteration computes the angle's entry as specified |
| TryOn.Post | app/api/tryon/route.ts:49-258 | the handler returns exactly the specified response |
| Db.PutPhoto | lib/db.ts:22-40 | `put` adds the record's own angle as a key |
| Db.PhotoOf | lib/db.ts:47-60 | a file is found exactly when the angle has a record |
| Db.AllFiles | lib/db.ts:69-77 | `getAllPhotos` has exactly the stored angles as keys, each with its stored file |
| Db.SaveThenGet | lib/db.ts:28-60 | `getPhoto` after `savePhoto` returns the saved file |
| Db.SaveKeepsOtherAngles | lib/db.ts:34-40 | a save leaves every other angle's record as it was |
| Db.LaterSaveReplaces | lib/db.ts:22-40 | a second save for the same angle overwrites the first |
| Db.PutPhotoKeyedByAngle | lib/db.ts:22-40 | saving keeps every record under its own angle |
| Db.PhotoStore.constructor | lib/db.ts:19-23 | a new store is empty |
| Db.PhotoStore.SavePhoto | lib/db.ts:28-45 | the store becomes the old store with the record put under its angle |
| Db.PhotoStore.GetPhoto | lib/db.ts:47-60 | the stored file, or null when the angle has no record |
| Db.PhotoStore.GetAllPhotos | lib/db.ts:62-81 | the `forEach` builds exactly `AllFiles` of the store |
| Db.PhotoStore.ClearAllPhotos | lib/db.ts:83-93 | the store becomes empty |
| Db.PutResults | lib/db.ts:122-128 | `put` adds the record's own id as a key |
| Db.LatestResults | lib/db.ts:135-148 | results are only ever read from the `"latest"` record |
| Db.SaveResultsThenGet | lib/db.ts:116-147 | reading after a save returns the value just saved |
| Db.LatestResultsOnlyReadsLatest | lib/db.ts:140-145 | records under any other key never affect the read |
| Db.ResultsStore.constructor | lib/db.ts:107-112 | a new results store is empty |
| Db.ResultsStore.SaveTryonResults | lib/db.ts:116-133 | the record is always written under `"latest"` |
| Db.ResultsStore.GetTryonResults | lib/db.ts:135-148 | the `"latest"` results, or null when absent or null |
| Db.SavePhotoLeavesResults | lib/db.ts:96-98 | a photo save leaves the results store as it was |
| Onboarding.Set | app/onboarding/page.tsx:35 | the chosen slot gets the file and every other slot is kept |
| Onboarding.CountFilled | app/onboarding/page.tsx:27 | the count never exceeds the number of angles counted |
| Onboarding.CompletedCount | app/onboarding/page.tsx:27 | at most four photos are counted |
| Onboarding.Progress | app/onboarding/page.tsx:28 | progress is 0, 25, 50, 75 or 100 |
| Onboarding.NextAngle | app/onboarding/page.tsx:36-39 | the next angle is one place on, and the last angle stays |
| Onboarding.AllUploadedIff | app/onboarding/page.tsx:48 | `every` holds iff every angle's slot is filled |
| Onboarding.AllUploaded | app/onboarding/page.tsx:48 | when it holds, every angle's slot is filled |
| Onboarding.CountAfterSet | app/onboarding/page.tsx:27-35 | filling an empty slot adds one to the count; emptying a filled slot takes one away |
| Onboarding.CompletedIffAllUploaded | app/onboarding/page.tsx:27-28 | the count is at most 4, starts at 0, and is 4 (progress 100) iff all slots are filled |
| Onboarding.ContinueStoresEverySlot | app/onboarding/page.tsx:57-62 | Continue stores each slot's file under its angle and leaves other keys alone |
| Onboarding.SaveAllAngle | app/onboarding/page.tsx:57-62 | after the saves, an angle reads back its slot's file if it was saved, and its earlier record otherwise |
| Onboarding.SaveAllOtherKey | app/onboarding/page.tsx:57-62 | keys other than the four angle names are untouched by the saves |
| Onboarding.SaveAllKeyedByAngle | app/onboarding/page.tsx:57-62 | the saves keep the store keyed by angle |
| Onboarding.SaveAll | app/onboarding/page.tsx:57-62 | the saves keep every existing key and add only angle names |
| Onboarding.OnboardingPage.constructor | app/onboarding/page.tsx:18-24 | all slots start empty and the current angle is front |
| Onboarding.OnboardingPage.HandleFileChange | app/onboarding/page.tsx:30-45 | no file changes nothing; a file fills the current slot only and advances the angle |
| Onboarding.OnboardingPage.RemoveCurrent | app/onboarding/page.tsx:163 | empties the current slot only and keeps the angle |
| Onboarding.OnboardingPage.SelectAngle | app/onboarding/page.tsx:110 | changes the current angle only |
| Onboarding.OnboardingPage.HandleContinue | app/onboarding/page.tsx:47-70 | saves nothing with a slot empty; otherwise saves front, back, left, right in order and moves to the upload page |
| Upload.EncodedPhotos | app/upload/page.tsx:107-110 | one encoded photo per stored angle |
| Upload.RequestBody | app/upload/page.tsx:112-125 | the body always carries one photo per stored angle, and any URL or image it carries is non-empty |
| Upload.Generate | app/upload/page.tsx:90-143 | results are saved only from an ok reply and are the reply's results; a failure means the call threw or the reply was not ok |
| Upload.NoRequestWithoutInputs | app/upload/page.tsx:91-104 | no product, or fewer than four stored photos, means no request |
| Upload.SavedOnlyWhenOk | app/upload/page.tsx:128-136 | results are saved iff the reply is ok |
| Upload.SentRequestPassesValidation | app/upload/page.tsx:112-125 | every request sent has photos for the stored angles and a truthy image or URL |
| Upload.EmptyFieldsBecomeNull | app/upload/page.tsx:121-125 | an empty URL or image text is sent as null, any other as it is |
| Upload.EncodePhotos | app/upload/page.tsx:107-110 | the loop encodes every stored photo under its angle |
| Upload.UploadPage.constructor | app/upload/page.tsx:9-13 | empty URL, no image or preview, photos not yet checked |
| Upload.UploadPage.CheckPhotos | app/upload/page.tsx:15-35 | fewer than four stored photos redirects to onboarding; otherwise the page shows |
| Upload.UploadPage.HandleImageUpload | app/upload/page.tsx:37-58 | a file becomes image and preview and clears the URL; no file changes nothing |
| Upload.UploadPage.HandleUrlChange | app/upload/page.tsx:60-66 | a non-empty URL clears image and preview; an empty one keeps them |
| Upload.UploadPage.RemoveImage | app/upload/page.tsx:199-202 | clears image and preview and keeps the URL |
| Upload.UploadPage.HandleClearPhotos | app/upload/page.tsx:68-79 | when confirmed, empties the photo store and goes to onboarding |
| Upload.UploadPage.HandleGenerate | app/upload/page.tsx:90-143 | returns the specified outcome and writes the results store only on an ok reply |
| Results.JsRemainder | app/results/page.tsx:97 | JavaScript `%`: `a` is a multiple of the divisor plus the result, which has the dividend's sign and magnitude below the divisor, so it is the truncated remainder |
| Results.NextIndex | app/results/page.tsx:97 | from a valid index the next one is valid |
| Results.PrevIndex | app/results/page.tsx:101 | from a valid index the previous one is valid |
| Results.NavigationStaysInRange | app/results/page.tsx:96-102 | both arrows keep the index in range and step by one with wrap-around |
| Results.PrevUndoesNext | app/results/page.tsx:96-102 | previous after next, and next after previous, is the identity |
| Results.AdvanceWithinCycle | app/results/page.tsx:96-98 | k presses (k ≤ n) move k places, wrapping once |
| Results.FullCycleReturns | app/results/page.tsx:96-98 | n presses return to the start and no fewer do |
| Results.DownloadFilenameShape | app/results/page.tsx:60-88 | the file name is `fitmirror-` + angle + `.png` on both branches |
| Results.DirectExactlyForDataUrls | app/results/page.tsx:60-88 | a data URL is downloaded directly, any other URL is fetched first, nothing without a current result |
| Results.PlanDownload | app/results/page.tsx:60-88 | a download happens iff there is a current result, and is named after its angle |
| Results.ResultsPage.constructor | app/results/page.tsx:15-16 | no results, index 0 |
| Results.ResultsPage.Load | app/results/page.tsx:19-35 | missing results redirect to onboarding; otherwise the stored results are shown |
| Results.ResultsPage.NextImage | app/results/page.tsx:96-98 | the index moves to `NextIndex` and stays valid |
| Results.ResultsPage.PrevImage | app/results/page.tsx:100-102 | the index moves to `PrevIndex` and stays valid |
| Results.ResultsPage.SelectThumbnail | app/results/page.tsx:180-185 | the index becomes the chosen thumbnail's |

## Left out

- ModelOutput.Resolve: the model's `output` and `url` fields are modelled as strings; the source passes any truthy value through (an array in `output`, say, becomes the image URL unchanged and skips the http re-fetch), and TryOn.OkResponseShape and TryOn.AngleEntryRenderable rely on this typing.
- The try-on model, the HEIC transcoder, `fetch`, `response.blob()`, `FileReader`, `Buffer`'s
  base64 and the API token are parameters. Base64 is assumed only to satisfy `ValidCodec`
  (decoding inverts encoding, padded length, alphabet). The transcoder's quality setting
  of 0.9 is a floating-point value passed to it and is not modelled.
- `request.json()` parsing and the catch-all that answers 500 "Internal server error"
  (app/api/tryon/route.ts:259-264) are not modelled. Request fields are typed: a JSON value
  of another type (a number as a photo, a non-object `userPhotos`) is not represented.
- Logging (`console.*`), the model identifier string and the User-Agent header of the
  product fetch are not modelled; they do not affect any result.
- The opening, upgrading and transactions of IndexedDB and every storage error are not
  modelled. Each store operation is taken to succeed, and the pages' catch branches for
  storage failures are not represented.
- Timestamps are a `now` parameter. One Continue or Generate call uses one value for
  every record it writes.
- The `uploading`, `generating` and `sharing` flags, rendering, `alert`/`confirm` text,
  object URLs and their revocation are not modelled. `confirm` is a boolean parameter, and
  an image preview is modelled as the file it previews.
- `handleShare` on the results page (`navigator.share` and the clipboard) is I/O only and is
  not modelled.
- The download itself (creating a link and clicking it, blob fetches) is not modelled.
  `Results.PlanDownload` records what would be downloaded and under which name.
- The remaining pages and components of the repository are not part of this model.
- Results.ResultsPage.NextImage: requires more than one result, because the arrows are
  rendered only then (app/results/page.tsx:130). With no results JavaScript would compute
  `NaN`.
- Results.ResultsPage.PrevImage: requires more than one result, for the same reason.
- Results.ResultsPage.SelectThumbnail: requires more than one result, because thumbnails are
  rendered only then (app/results/page.tsx:178).
- Results.JsRemainder: stated for a positive divisor only, because the page only ever
  divides by a list length.

=== FILE: app.dfy ===
/** Vocabulary shared by the request handler, the stores and the pages. */
module App {
  import opened Wrappers
  import opened Bytes

  /** The four body-photo angles, in the order every loop visits them. */
  datatype Angle = Front | Back | Left | Right

  const Angles: seq<Angle> := [Front, Back, Left, Right]

  /** The angle's key in request bodies, stores and results. */
  function Name(a: Angle): string {
    match a
    case Front => "front"
    case Back => "back"
    case Left => "left"
    case Right => "right"
  }

  const AngleNames: set<string> := {"front", "back", "left", "right"}

  /** The position of an angle in `Angles`. */
  function Rank(a: Angle): (k: nat)
    ensures k < |Angles| && Angles[k] == a
  {
    match a
    case Front => 0
    case Back => 1
    case Left => 2
    case Right => 3
  }

  lemma NameInjective(a: Angle, b: Angle)
    ensures Name(a) == Name(b) <==> a == b
    ensures Name(a) in AngleNames
  {
  }

  /** A browser File: an opaque blob the model never looks inside. */
  datatype File = File(name: string, content: seq<Byte>)

  /** One entry of the handler's `results` list, as the results page and its store hold it. */
  datatype TryOnResult = TryOnResult(angle: string, imageUrl: string, error: Option<string>)

  /** The page a handler navigates to with `router.push`. */
  datatype Route = OnboardingPage | UploadPage | ResultsPage
}

=== FILE: bytes.dfy ===
/** Bytes, their lower-case hex text (`Buffer.toString('hex')`), and base64 as an abstract codec. */
module Bytes {

  type Byte = b: int | 0 <= b < 256

  const HexAlphabet := "0123456789abcdef"

  function HexDigit(v: int): char
    requires 0 <= v < 16
  {
    HexAlphabet[v]
  }

  /** Two lower-case hex digits per byte, high nibble first. */
  function Hex(bytes: seq<Byte>): (h: string)
    ensures |h| == 2 * |bytes|
    ensures forall i :: 0 <= i < |bytes| ==>
      h[2 * i] == HexDigit(bytes[i] / 16) && h[2 * i + 1] == HexDigit(bytes[i] % 16)
  {
    if bytes == [] then ""
    else [HexDigit(bytes[0] / 16), HexDigit(bytes[0] % 16)] + Hex(bytes[1..])
  }

  lemma {:induction false} HexAppend(a: seq<Byte>, b: seq<Byte>)
    ensures Hex(a + b) == Hex(a) + Hex(b)
  {
    if a == [] {
      assert a + b == b;
    } else {
      assert (a + b)[1..] == a[1..] + b;
      HexAppend(a[1..], b);
    }
  }

  function NibbleOf(c: char): int {
    if '0' <= c <= '9' then c as int - '0' as int
    else if 'a' <= c <= 'f' then c as int - 'a' as int + 10
    else 0
  }

  lemma NibbleOfHexDigit(v: int)
    requires 0 <= v < 16
    ensures NibbleOf(HexDigit(v)) == v
  {
  }

  /** Reading hex text back into bytes (`Buffer.from(h, 'hex')` on well-formed text). */
  function Unhex(h: string): seq<Byte>
    requires |h| % 2 == 0
  {
    if h == [] then []
    else
      var v := 16 * NibbleOf(h[0]) + NibbleOf(h[1]);
      (if 0 <= v < 256 then [v as Byte] else [0]) + Unhex(h[2..])
  }

  lemma {:induction false} HexRoundTrip(bytes: seq<Byte>)
    ensures Unhex(Hex(bytes)) == bytes
  {
    if bytes != [] {
      var x := bytes[0];
      var h := [HexDigit(x / 16), HexDigit(x % 16)] + Hex(bytes[1..]);
      assert Hex(bytes) == h;
      NibbleOfHexDigit(x / 16);
      NibbleOfHexDigit(x % 16);
      assert h[2..] == Hex(bytes[1..]);
      HexRoundTrip(bytes[1..]);
    }
  }

  /**
   * Base64 as `Buffer.from(s, 'base64')` and `buf.toString('base64')` provide it. The
   * codec is a parameter of the model; ValidCodec states what the model relies on.
   */
  datatype Codec = Codec(encode: seq<Byte> -> string, decode: string -> seq<Byte>)

  predicate IsBase64Char(c: char) {
    ('A' <= c <= 'Z') || ('a' <= c <= 'z') || ('0' <= c <= '9') || c == '+' || c == '/' || c == '='
  }

  /** Padded base64 per section 4 of RFC 4648: decoding inverts encoding, 4 characters per 3 bytes. */
  ghost predicate ValidCodec(c: Codec) {
    && (forall b :: c.decode(c.encode(b)) == b)
    && (forall b :: |c.encode(b)| == 4 * ((|b| + 2) / 3))
    && (forall b, i :: 0 <= i < |c.encode(b)| ==> IsBase64Char(c.encode(b)[i]))
  }
}

=== FILE: data_uri.dfy ===
/**
 * Data URIs (section 3 of RFC 2397) of the form `data:<mime>;base64,<payload>`, and the
 * prefix strip `/^data:image\/[^;]+;base64,(.+)$/` used before base64 decoding.
 */
module DataUri {
  import opened Wrappers
  import opened Text
  import opened Bytes

  const ImagePrefix := "data:image/"
  const Base64Marker := ";base64,"
  const JpegMime := "image/jpeg"

  /** The characters JavaScript's `.` does not match. */
  predicate IsLineTerminator(c: char) {
    c == '\n' || c == '\r' || c == '\U{2028}' || c == '\U{2029}'
  }

  /** What `[^;]+` accepts. */
  predicate ValidSubtype(t: string) {
    |t| > 0 && ';' !in t
  }

  /** What `(.+)$` accepts. */
  predicate ValidPayload(p: string) {
    |p| > 0 && forall i :: 0 <= i < |p| ==> !IsLineTerminator(p[i])
  }

  /** `data:${mime};base64,${payload}` */
  function ToDataUri(mime: string, payload: string): string {
    "data:" + mime + Base64Marker + payload
  }

  function SemicolonIndex(s: string): (i: nat)
    ensures i <= |s| && ';' !in s[..i]
    ensures i < |s| ==> s[i] == ';'
  {
    if s == [] || s[0] == ';' then 0
    else
      var j := SemicolonIndex(s[1..]);
      assert s[..j + 1] == [s[0]] + s[1..][..j];
      j + 1
  }

  /**
   * The regular-expression match: the media subtype and the captured payload. `[^;]+`
   * cannot cross a `;`, so the match, if any, is decided by the first `;` after the prefix.
   */
  function Parse(s: string): (r: Option<(string, string)>)
    ensures r.Some? ==> ValidSubtype(r.value.0) && ValidPayload(r.value.1)
    ensures r.Some? ==> s == ImagePrefix + r.value.0 + Base64Marker + r.value.1
  {
    if !StartsWith(s, ImagePrefix) then None
    else
      var rest := s[|ImagePrefix|..];
      var i := SemicolonIndex(rest);
      var t, tail := rest[..i], rest[i..];
      if |t| > 0 && StartsWith(tail, Base64Marker) && ValidPayload(tail[|Base64Marker|..]) then
        assert s == ImagePrefix + t + Base64Marker + tail[|Base64Marker|..] by {
          assert s == s[..|ImagePrefix|] + rest;
          assert rest == t + tail;
          assert tail == tail[..|Base64Marker|] + tail[|Base64Marker|..];
        }
        Some((t, tail[|Base64Marker|..]))
      else None
  }

  /** Every well-formed image data URI is matched, with exactly its own subtype and payload. */
  lemma ParseComplete(t: string, p: string)
    requires ValidSubtype(t) && ValidPayload(p)
    ensures Parse(ImagePrefix + t + Base64Marker + p) == Some((t, p))
  {
    var s := ImagePrefix + t + Base64Marker + p;
    assert StartsWith(s, ImagePrefix);
    var rest := s[|ImagePrefix|..];
    assert rest == t + Base64Marker + p;
    var i := SemicolonIndex(rest);
    assert rest == t + (Base64Marker + p);
    SemicolonIndexAfter(t, Base64Marker + p);
    assert i == |t|;
    var tail := rest[i..];
    assert tail == Base64Marker + p;
    assert StartsWith(tail, Base64Marker);
    assert tail[|Base64Marker|..] == p;
    assert rest[..i] == t;
    assert s[|ImagePrefix|..] == rest;
    assert Parse(s) == Some((rest[..i], tail[|Base64Marker|..]));
  }

  lemma {:induction false} SemicolonIndexAfter(t: string, u: string)
    requires ';' !in t && |u| > 0 && u[0] == ';'
    ensures SemicolonIndex(t + u) == |t|
  {
    if t == [] {
      assert t + u == u;
    } else {
      assert (t + u)[1..] == t[1..] + u;
      assert t[0] in t;
      SemicolonIndexAfter(t[1..], u);
    }
  }

  /** The text to decode: the captured payload of an image data URI, else the whole input. */
  function Payload(s: string): (r: string)
    ensures |r| <= |s| && r == s[|s| - |r|..]
  {
    match Parse(s)
    case Some((t, p)) =>
      assert s == (ImagePrefix + t + Base64Marker) + p;
      p
    case None => s
  }

  /** Given an image data URI, only the part after `;base64,` is decoded. */
  lemma PayloadOfImageUri(t: string, p: string)
    requires ValidSubtype(t) && ValidPayload(p)
    ensures Payload(ImagePrefix + t + Base64Marker + p) == p
  {
    ParseComplete(t, p);
  }

  /** Without the `data:image/` prefix or the `;base64,` marker the whole string is decoded. */
  lemma PayloadOtherwise(s: string)
    requires !StartsWith(s, ImagePrefix) || !Contains(s, Base64Marker)
    ensures Payload(s) == s
  {
    ParsedHasPrefixAndMarker(s);
  }

  /** Any input the regex rejects is decoded whole, even with both the prefix and the marker present. */
  lemma PayloadUnmatched(s: string)
    requires forall t, p :: ValidSubtype(t) && ValidPayload(p) ==> s != ImagePrefix + t + Base64Marker + p
    ensures Payload(s) == s
  {
  }

  /** A media-type parameter before `;base64,` defeats the regex: `[^;]+` cannot cross the `;`. */
  lemma PayloadWithParameter()
    ensures Payload("data:image/png;charset=x;base64,AAAA") == "data:image/png;charset=x;base64,AAAA"
  {
    var s := "data:image/png;charset=x;base64,AAAA";
    forall t, p | ValidSubtype(t) && ValidPayload(p)
      ensures s != ImagePrefix + t + Base64Marker + p
    {
      var u := ImagePrefix + t + Base64Marker + p;
      if |t| < 3 {
        assert u[|ImagePrefix| + |t|] == ';' != s[|ImagePrefix| + |t|];
      } else if |t| == 3 {
        assert u[15] == 'b' != s[15];
      } else {
        assert t[3] in t;
        assert u[14] == t[3] != ';' == s[14];
      }
    }
    PayloadUnmatched(s);
  }

  lemma ParsedHasPrefixAndMarker(s: string)
    ensures Parse(s).Some? ==> StartsWith(s, ImagePrefix) && Contains(s, Base64Marker)
  {
    match Parse(s)
    case None =>
    case Some((t, p)) =>
      assert OccursAt(s, Base64Marker, |ImagePrefix| + |t|) by {
        assert s[|ImagePrefix| + |t|..|ImagePrefix| + |t| + |Base64Marker|] == Base64Marker;
      }
      OccursAtContains(s, Base64Marker, |ImagePrefix| + |t|);
  }

  /** A data URI built with an `image/<t>` media type is recognised again. */
  lemma ToDataUriImage(t: string, p: string)
    ensures ToDataUri("image/" + t, p) == ImagePrefix + t + Base64Marker + p
  {
  }

  /** Base64 text of a non-empty buffer is a payload `(.+)$` accepts. */
  lemma EncodedIsPayload(codec: Codec, bytes: seq<Byte>)
    requires ValidCodec(codec) && |bytes| > 0
    ensures ValidPayload(codec.encode(bytes))
  {
    var p := codec.encode(bytes);
    assert |p| == 4 * ((|bytes| + 2) / 3);
    forall i | 0 <= i < |p|
      ensures !IsLineTerminator(p[i])
    {
      assert IsBase64Char(codec.encode(bytes)[i]);
    }
  }
}

=== FILE: db.dfy ===
/**
 * The two browser-side object stores: photos keyed by their `angle` field, and try-on
 * results kept as a single record under the key "latest". Each store is a class whose
 * `records` map is what the database holds; `put`, `get`, `getAll` and `clear` act on it.
 */
module Db {
  import opened Wrappers
  import opened App

  /** `PhotoData` */
  datatype PhotoRecord = PhotoRecord(angle: string, file: File, timestamp: int)

  /** The results record; `results` is None when the saved value is null or undefined. */
  datatype ResultsRecord = ResultsRecord(id: string, results: Option<seq<TryOnResult>>, timestamp: int)

  const LatestKey := "latest"

  // ---------------------------------------------------------------- photos

  /** `put` on a store whose key path is `angle`: the record is stored under its own angle. */
  function PutPhoto(m: map<string, PhotoRecord>, r: PhotoRecord): (m': map<string, PhotoRecord>)
    ensures m'.Keys == m.Keys + {r.angle}
  {
    m[r.angle := r]
  }

  /** `getPhoto`: the stored file, or null when the angle has no record. */
  function PhotoOf(m: map<string, PhotoRecord>, angle: string): (f: Option<File>)
    ensures f.Some? <==> angle in m
  {
    if angle in m then Some(m[angle].file) else None
  }

  /** Every record is stored under its own `angle`. */
  predicate KeyedByAngle(m: map<string, PhotoRecord>) {
    forall k :: k in m ==> m[k].angle == k
  }

  /** The object `getAllPhotos` builds: each stored angle mapped to its file. */
  function AllFiles(m: map<string, PhotoRecord>): (files: map<string, File>)
    requires KeyedByAngle(m)
    ensures files.Keys == m.Keys
    ensures forall k :: k in files ==> PhotoOf(m, k) == Some(files[k])
  {
    map k | k in m :: m[k].file
  }

  /** Saving then reading the same angle gives back the saved file. */
  lemma SaveThenGet(m: map<string, PhotoRecord>, angle: string, file: File, now: int)
    ensures PhotoOf(PutPhoto(m, PhotoRecord(angle, file, now)), angle) == Some(file)
  {
  }

  /** A save touches its own angle only. */
  lemma SaveKeepsOtherAngles(m: map<string, PhotoRecord>, angle: string, file: File, now: int, other: string)
    requires other != angle
    ensures other in PutPhoto(m, PhotoRecord(angle, file, now)) <==> other in m
    ensures other in m ==> PutPhoto(m, PhotoRecord(angle, file, now))[other] == m[other]
  {
  }

  /** A later save for the same angle replaces the earlier record entirely. */
  lemma LaterSaveReplaces(m: map<string, PhotoRecord>, angle: string, f1: File, t1: int, f2: File, t2: int)
    ensures PutPhoto(PutPhoto(m, PhotoRecord(angle, f1, t1)), PhotoRecord(angle, f2, t2))
         == PutPhoto(m, PhotoRecord(angle, f2, t2))
  {
  }

  /** Saving keeps every record under its own angle. */
  lemma PutPhotoKeyedByAngle(m: map<string, PhotoRecord>, r: PhotoRecord)
    requires KeyedByAngle(m)
    ensures KeyedByAngle(PutPhoto(m, r))
  {
  }

  /** The photo store. */
  class PhotoStore {
    var records: map<string, PhotoRecord>

    ghost predicate Valid()
      reads this
    {
      KeyedByAngle(records)
    }

    /** A freshly created, empty store. */
    constructor ()
      ensures records == map[]
      ensures Valid()
    {
      records := map[];
    }

    /** `savePhoto(angle, file)`; `now` is the value of `Date.now()`. */
    method SavePhoto(angle: string, file: File, now: int)
      requires Valid()
      modifies this
      ensures Valid()
      ensures records == PutPhoto(old(records), PhotoRecord(angle, file, now))
    {
      records := PutPhoto(records, PhotoRecord(angle, file, now));
    }

    /** `getPhoto(angle)` */
    method GetPhoto(angle: string) returns (file: Option<File>)
      ensures file.Some? <==> angle in records
      ensures file.Some? ==> file.value == records[angle].file
    {
      if angle in records {
        file := Some(records[angle].file);
      } else {
        file := None;
      }
    }

    /** `getAllPhotos()`: the `forEach` over the stored records. */
    method GetAllPhotos() returns (photos: map<string, File>)
      requires Valid()
      ensures photos == AllFiles(records)
    {
      photos := map[];
      var remaining := records.Keys;
      while remaining != {}
        invariant remaining <= records.Keys
        invariant photos.Keys == records.Keys - remaining
        invariant forall k :: k in photos ==> photos[k] == records[k].file
        decreases remaining
      {
        var k :| k in remaining;
        var data := records[k];
        photos := photos[data.angle := data.file];
        remaining := remaining - {k};
      }
    }

    /** `clearAllPhotos()` */
    method ClearAllPhotos()
      modifies this
      ensures records == map[]
      ensures Valid()
    {
      records := map[];
    }
  }

  // ---------------------------------------------------------------- results

  /** `put` on a store whose key path is `id`. */
  function PutResults(m: map<string, ResultsRecord>, r: ResultsRecord): (m': map<string, ResultsRecord>)
    ensures m'.Keys == m.Keys + {r.id}
  {
    m[r.id := r]
  }

  /** `getTryonResults`: the results under "latest", or null when absent or falsy. */
  function LatestResults(m: map<string, ResultsRecord>): (r: Option<seq<TryOnResult>>)
    ensures r.Some? ==> LatestKey in m && m[LatestKey].results == r
  {
    if LatestKey in m then m[LatestKey].results else None
  }

  /** Reading after a save gives the value just saved, whatever was stored before. */
  lemma SaveResultsThenGet(m: map<string, ResultsRecord>, results: Option<seq<TryOnResult>>, now: int)
    ensures LatestResults(PutResults(m, ResultsRecord(LatestKey, results, now))) == results
  {
  }

  /** Only the "latest" record is ever read. */
  lemma LatestResultsOnlyReadsLatest(m: map<string, ResultsRecord>, key: string, r: ResultsRecord)
    requires key != LatestKey && r.id == key
    ensures LatestResults(PutResults(m, r)) == LatestResults(m)
  {
  }

  /** The results store. */
  class ResultsStore {
    var records: map<string, ResultsRecord>

    ghost predicate Valid()
      reads this
    {
      forall k :: k in records ==> records[k].id == k
    }

    constructor ()
      ensures records == map[]
      ensures Valid()
    {
      records := map[];
    }

    /** `saveTryonResults(results)`: always written under "latest". */
    method SaveTryonResults(results: Option<seq<TryOnResult>>, now: int)
      requires Valid()
      modifies this
      ensures Valid()
      ensures records == PutResults(old(records), ResultsRecord(LatestKey, results, now))
    {
      records := PutResults(records, ResultsRecord(LatestKey, results, now));
    }

    /** `getTryonResults()` */
    method GetTryonResults() returns (results: Option<seq<TryOnResult>>)
      ensures results.Some? <==> LatestKey in records && records[LatestKey].results.Some?
      ensures results.Some? ==> results == records[LatestKey].results
    {
      if LatestKey in records {
        results := records[LatestKey].results;
      } else {
        results := None;
      }
    }
  }

  /** The two stores are separate databases: saving to one leaves the other as it was. */
  method SavePhotoLeavesResults(photos: PhotoStore, results: ResultsStore, angle: string, file: File, now: int)
    requires photos.Valid()
    modifies photos
    ensures results.records == old(results.records)
    ensures photos.records == PutPhoto(old(photos.records), PhotoRecord(angle, file, now))
  {
    photos.SavePhoto(angle, file, now);
  }
}

=== FILE: heic.dfy ===
/**
 * The image normaliser: HEIC detection on the hex text of the first 12 decoded bytes
 * (the ISO base-media `ftyp` box, ISO/IEC 14496-12 section 4.3) and the fail-open
 * HEIC-to-JPEG conversion.
 */
module Heic {
  import opened Wrappers
  import opened Text
  import opened Bytes
  import opened DataUri

  /** Hex of 'ftyphei', 'ftypheix', 'ftyphev' and 'ftyphem'. */
  const SigHei := "66747970686569"
  const SigHeix := "6674797068656978"
  const SigHev := "66747970686576"
  const SigHem := "6674797068656d"

  /** The lower-case hex text of at most the first twelve bytes. */
  function Header(bytes: seq<Byte>): (h: string)
    ensures |h| == 2 * (if |bytes| < 12 then |bytes| else 12) && |h| <= 24
  {
    Hex(bytes[..if |bytes| < 12 then |bytes| else 12])
  }

  /** The four `header.includes(...)` tests; matches are on text, not on byte boundaries. */
  predicate IsHeic(bytes: seq<Byte>)
    ensures IsHeic(bytes) ==> |bytes| >= 7
  {
    var h := Header(bytes);
    Contains(h, SigHei) || Contains(h, SigHeix) || Contains(h, SigHev) || Contains(h, SigHem)
  }

  /** The transcoder (heic-convert at quality 0.9): JPEG bytes, or None when it throws. */
  type Transcoder = seq<Byte> -> Option<seq<Byte>>

  /** convertHeicToJpeg: never fails; returns its input unless a HEIC image was transcoded. */
  function ConvertHeicToJpeg(codec: Codec, transcode: Transcoder, input: string): (r: string)
    ensures r == input || StartsWith(r, ToDataUri(JpegMime, ""))
    ensures !IsHeic(codec.decode(Payload(input))) ==> r == input
    ensures var bytes := codec.decode(Payload(input));
      IsHeic(bytes) && transcode(bytes).Some? ==> r == ToDataUri(JpegMime, codec.encode(transcode(bytes).value))
  {
    var bytes := codec.decode(Payload(input));
    if !IsHeic(bytes) then input
    else
      match transcode(bytes)
      case None => input
      case Some(jpeg) =>
        var r := ToDataUri(JpegMime, codec.encode(jpeg));
        assert r[..|ToDataUri(JpegMime, "")|] == ToDataUri(JpegMime, "");
        r
  }

  /** The `ftypheix` test is redundant: its text begins with the `ftyphei` text. */
  lemma HeixSubsumed(h: string)
    ensures Contains(h, SigHeix) ==> Contains(h, SigHei)
  {
    if Contains(h, SigHeix) {
      assert SigHeix[..|SigHei|] == SigHei;
      ContainsPrefixOfNeedle(h, SigHeix, |SigHei|);
    }
  }

  /** Dropping the `ftypheix` test changes no decision. */
  lemma IsHeicWithoutHeix(bytes: seq<Byte>)
    ensures IsHeic(bytes) <==>
      var h := Header(bytes); Contains(h, SigHei) || Contains(h, SigHev) || Contains(h, SigHem)
  {
    HeixSubsumed(Header(bytes));
  }

  /** Fewer than 7 bytes give fewer than 14 hex digits, too short for any signature. */
  lemma ShortInputIsNotHeic(bytes: seq<Byte>)
    requires |bytes| < 7
    ensures !IsHeic(bytes)
  {
  }

  const Ftyp: seq<Byte> := [0x66, 0x74, 0x79, 0x70]

  /**
   * A file whose `ftyp` box (4-byte size, then the type) carries a major brand beginning
   * `hei`, `hev` or `hem` is detected: heic, heix, hevc, heim, heis, hevm, ...
   */
  lemma FtypBrandIsHeic(bytes: seq<Byte>)
    requires |bytes| >= 12 && bytes[4..8] == Ftyp
    requires bytes[8] == 0x68 && bytes[9] == 0x65 && bytes[10] in {0x69, 0x76, 0x6d}
    ensures IsHeic(bytes)
  {
    var h := Header(bytes);
    var b := bytes[..12];
    assert b[4..8] == Ftyp;
    assert b[4] == 0x66 && h[8] == '6' && h[9] == '6';
    assert b[5] == 0x74 && h[10] == '7' && h[11] == '4';
    assert b[6] == 0x79 && h[12] == '7' && h[13] == '9';
    assert b[7] == 0x70 && h[14] == '7' && h[15] == '0';
    assert b[8] == 0x68 && h[16] == '6' && h[17] == '8';
    assert b[9] == 0x65 && h[18] == '6' && h[19] == '5';
    var sig := if bytes[10] == 0x69 then SigHei else if bytes[10] == 0x76 then SigHev else SigHem;
    assert b[10] == bytes[10] && h[20] == sig[12] && h[21] == sig[13];
    assert h[8..22] == sig;
    assert OccursAt(h, sig, 8);
    OccursAtContains(h, sig, 8);
  }

  /** Eight bytes that hold no 'f' (0x66), whose hex text 0667479706865690 nevertheless holds SigHei. */
  const NibbleShifted: seq<Byte> := [0x06, 0x67, 0x47, 0x97, 0x06, 0x86, 0x56, 0x90]

  /** Because the test runs on hex text, a match may start in the middle of a byte. */
  lemma NibbleShiftedMatch()
    ensures 0x66 !in NibbleShifted && IsHeic(NibbleShifted)
  {
    var bytes := NibbleShifted;
    var h := Header(bytes);
    assert bytes[..8] == bytes;
    assert bytes[0] == 0x06 && h[0] == '0' && h[1] == '6';
    assert bytes[1] == 0x67 && h[2] == '6' && h[3] == '7';
    assert bytes[2] == 0x47 && h[4] == '4' && h[5] == '7';
    assert bytes[3] == 0x97 && h[6] == '9' && h[7] == '7';
    assert bytes[4] == 0x06 && h[8] == '0' && h[9] == '6';
    assert bytes[5] == 0x86 && h[10] == '8' && h[11] == '6';
    assert bytes[6] == 0x56 && h[12] == '5' && h[13] == '6';
    assert bytes[7] == 0x90 && h[14] == '9';
    assert h[1..15] == SigHei;
    assert OccursAt(h, SigHei, 1);
    OccursAtContains(h, SigHei, 1);
  }

  /** Fail open: a transcoder failure returns the input unchanged. */
  lemma ConversionFailureKeepsInput(codec: Codec, transcode: Transcoder, input: string)
    requires transcode(codec.decode(Payload(input))).None?
    ensures ConvertHeicToJpeg(codec, transcode, input) == input
  {
  }

  /** An empty string stays empty: it decodes to no bytes, which are not HEIC. */
  lemma ConvertEmpty(codec: Codec, transcode: Transcoder)
    requires ValidCodec(codec)
    ensures ConvertHeicToJpeg(codec, transcode, "") == ""
  {
    PayloadOtherwise("");
    assert |codec.encode([])| == 0;
    assert codec.decode("") == codec.decode(codec.encode([])) == [];
    ShortInputIsNotHeic([]);
  }

  /** Whenever the normaliser returns its input, applying it again changes nothing. */
  lemma ConvertIdempotentWhenUnchanged(codec: Codec, transcode: Transcoder, input: string)
    requires ConvertHeicToJpeg(codec, transcode, input) == input
    ensures ConvertHeicToJpeg(codec, transcode, ConvertHeicToJpeg(codec, transcode, input))
         == ConvertHeicToJpeg(codec, transcode, input)
  {
  }

  /** In particular it is idempotent on every input that is not HEIC. */
  lemma ConvertIdempotentOnNonHeic(codec: Codec, transcode: Transcoder, input: string)
    requires !IsHeic(codec.decode(Payload(input)))
    ensures ConvertHeicToJpeg(codec, transcode, ConvertHeicToJpeg(codec, transcode, input))
         == ConvertHeicToJpeg(codec, transcode, input)
  {
    ConvertIdempotentWhenUnchanged(codec, transcode, input);
  }

  /**
   * A converted image is a JPEG data URI whose payload decodes to exactly the bytes the
   * transcoder produced.
   */
  lemma ConvertedDecodesToJpeg(codec: Codec, transcode: Transcoder, input: string, jpeg: seq<Byte>)
    requires ValidCodec(codec)
    requires IsHeic(codec.decode(Payload(input)))
    requires transcode(codec.decode(Payload(input))) == Some(jpeg) && |jpeg| > 0
    ensures codec.decode(Payload(ConvertHeicToJpeg(codec, transcode, input))) == jpeg
  {
    var p := codec.encode(jpeg);
    EncodedIsPayload(codec, jpeg);
    ToDataUriImage("jpeg", p);
    assert "image/" + "jpeg" == JpegMime;
    PayloadOfImageUri("jpeg", p);
  }
}

=== FILE: model_output.dfy ===
/**
 * The model's output as a tagged union with one resolution function, the stream scan
 * that collects binary chunks, and the concatenation of those chunks into one buffer.
 */
module ModelOutput {
  import opened Wrappers
  import opened Text
  import opened Bytes
  import opened DataUri

  /** One value yielded by the output stream; Fault stands for the iterator throwing. */
  datatype StreamItem = Chunk(bytes: seq<Byte>) | Url(url: string) | Other | Fault

  /** What the model call resolved to. */
  datatype Output =
    | Direct(s: string)                                   // a string
    | Fields(output: Option<string>, url: Option<string>) // an object that is not async-iterable
    | Stream(items: seq<StreamItem>)                      // an async iterable
    | Nothing                                             // null or a non-object value

  /** The resolved `imageUrl` (None is `undefined`), or the exception the stream raised. */
  datatype Resolution = Resolved(imageUrl: Option<string>) | Threw

  /** An item that ends collection: a string (`break`) or a throwing iterator. */
  predicate Stops(item: StreamItem) {
    item.Url? || item.Fault?
  }

  /** Where collection ends: the first stopping item, or the end of the stream. */
  function StopIndex(items: seq<StreamItem>): (k: nat)
    ensures k <= |items|
    ensures forall j :: 0 <= j < k ==> !Stops(items[j])
    ensures k < |items| ==> Stops(items[k])
  {
    if items == [] || Stops(items[0]) then 0 else 1 + StopIndex(items[1..])
  }

  /** The Uint8Array items, in arrival order. */
  function Chunks(items: seq<StreamItem>): (r: seq<seq<Byte>>)
    ensures |r| <= |items|
  {
    if items == [] then []
    else
      var last := items[|items| - 1];
      Chunks(items[..|items| - 1]) + (if last.Chunk? then [last.bytes] else [])
  }

  datatype Scan = Scan(chunks: seq<seq<Byte>>, url: Option<string>, faulted: bool)

  /** The `for await` loop: chunks before the stop, the string that stopped it, or a throw. */
  function ScanStream(items: seq<StreamItem>): (r: Scan)
    ensures |r.chunks| <= |items|
    ensures !(r.url.Some? && r.faulted)
  {
    var k := StopIndex(items);
    Scan(Chunks(items[..k]),
         if k < |items| && items[k].Url? then Some(items[k].url) else None,
         k < |items| && items[k].Fault?)
  }

  /** The reduce: the sum of the chunk lengths, added left to right. */
  function TotalLength(chunks: seq<seq<Byte>>): nat {
    if chunks == [] then 0 else TotalLength(chunks[..|chunks| - 1]) + |chunks[|chunks| - 1]|
  }

  /** The chunks laid end to end in arrival order. */
  function Flatten(chunks: seq<seq<Byte>>): (r: seq<Byte>)
    ensures |r| == TotalLength(chunks)
  {
    if chunks == [] then [] else Flatten(chunks[..|chunks| - 1]) + chunks[|chunks| - 1]
  }

  /** `imageUrl` after the output-shape checks (lines that run before the http re-fetch). */
  function Resolve(output: Output, codec: Codec): (r: Resolution)
    ensures r.Threw? ==> output.Stream? && ScanStream(output.items).faulted
    ensures output.Fields? ==> r.Resolved? && (r.imageUrl == output.output || r.imageUrl == output.url)
    ensures output.Nothing? ==> r == Resolved(None)
  {
    match output
    case Direct(s) => Resolved(Some(s))
    case Fields(o, u) => Resolved(if Truthy(o) then o else u)
    case Stream(items) =>
      var scan := ScanStream(items);
      if scan.faulted then Threw
      else if |scan.chunks| > 0 then Resolved(Some(ToDataUri(JpegMime, codec.encode(Flatten(scan.chunks)))))
      else Resolved(scan.url)
    case Nothing => Resolved(None)
  }

  /** A plain object gives its `output` field when truthy, its `url` field otherwise. */
  lemma FieldsPreferOutput(o: Option<string>, u: Option<string>, codec: Codec)
    ensures Resolve(Fields(o, u), codec) == Resolved(if Truthy(o) then o else u)
  {
  }

  /** A string output is the image URL as it is. */
  lemma DirectIsUrl(s: string, codec: Codec)
    ensures Resolve(Direct(s), codec) == Resolved(Some(s))
  {
  }

  /** Collecting over two stretches of the stream collects the first stretch's chunks, then the second's. */
  lemma {:induction false} ChunksAppend(a: seq<StreamItem>, b: seq<StreamItem>)
    ensures Chunks(a + b) == Chunks(a) + Chunks(b)
    decreases |b|
  {
    if b == [] {
      assert a + b == a;
    } else {
      var n := |b| - 1;
      assert (a + b)[..|a + b| - 1] == a + b[..n];
      assert (a + b)[|a + b| - 1] == b[n];
      ChunksAppend(a, b[..n]);
    }
  }

  /** A byte item contributes its bytes; any other item contributes nothing. */
  lemma ChunksOfOne(item: StreamItem)
    ensures Chunks([item]) == if item.Chunk? then [item.bytes] else []
  {
    assert [item][..0] == [];
  }

  lemma StopIndexUnique(items: seq<StreamItem>, k: nat)
    requires k <= |items| && forall j :: 0 <= j < k ==> !Stops(items[j])
    requires k < |items| ==> Stops(items[k])
    ensures StopIndex(items) == k
  {
  }

  lemma {:induction false} TotalLengthPrefix(chunks: seq<seq<Byte>>, i: nat)
    requires i <= |chunks|
    ensures TotalLength(chunks[..i]) <= TotalLength(chunks)
    decreases |chunks|
  {
    if i < |chunks| {
      var n := |chunks| - 1;
      assert chunks[..n][..i] == chunks[..i];
      TotalLengthPrefix(chunks[..n], i);
    } else {
      assert chunks[..i] == chunks;
    }
  }

  /** Chunk i starts at the summed length of the chunks before it, and is copied whole. */
  lemma {:induction false} ChunkPlacement(chunks: seq<seq<Byte>>, i: nat, j: nat)
    requires i < |chunks| && j < |chunks[i]|
    ensures TotalLength(chunks[..i]) + j < TotalLength(chunks)
    ensures Flatten(chunks)[TotalLength(chunks[..i]) + j] == chunks[i][j]
    decreases |chunks|
  {
    var n := |chunks| - 1;
    assert chunks[..n + 1] == chunks;
    if i == n {
      assert chunks[..i] == chunks[..n];
    } else {
      assert chunks[..n][..i] == chunks[..i];
      ChunkPlacement(chunks[..n], i, j);
    }
  }

  /** Collection stops at the first string or fault: what follows is never read. */
  lemma LaterItemsIgnored(items: seq<StreamItem>, rest: seq<StreamItem>, codec: Codec)
    requires StopIndex(items) < |items|
    ensures ScanStream(items + rest) == ScanStream(items)
    ensures Resolve(Stream(items + rest), codec) == Resolve(Stream(items), codec)
  {
    ScanIgnoresRest(items, rest);
  }

  lemma {:induction false} ScanIgnoresRest(items: seq<StreamItem>, rest: seq<StreamItem>)
    requires StopIndex(items) < |items|
    ensures ScanStream(items + rest) == ScanStream(items)
  {
    var k := StopIndex(items);
    var all := items + rest;
    assert all[k] == items[k];
    assert all[..k] == items[..k];
    forall j | 0 <= j < k ensures !Stops(all[j]) {
      assert all[j] == items[j];
    }
    StopIndexUnique(all, k);
    assert StopIndex(all) == k;
  }

  /** A string item with no chunk before it becomes `imageUrl`. */
  lemma StringItemWins(items: seq<StreamItem>, k: nat, codec: Codec)
    requires k < |items| && items[k].Url?
    requires forall j :: 0 <= j < k ==> !Stops(items[j]) && !items[j].Chunk?
    ensures Resolve(Stream(items), codec) == Resolved(Some(items[k].url))
  {
    StopIndexUnique(items, k);
    NoChunks(items[..k]);
  }

  lemma {:induction false} NoChunks(items: seq<StreamItem>)
    requires forall j :: 0 <= j < |items| ==> !items[j].Chunk?
    ensures Chunks(items) == []
  {
    if items != [] {
      NoChunks(items[..|items| - 1]);
    }
  }

  /** A stream that yields neither bytes, a string nor a throw leaves `imageUrl` undefined. */
  lemma EmptyStreamResolvesToNothing(items: seq<StreamItem>, codec: Codec)
    requires forall j :: 0 <= j < |items| ==> items[j].Other?
    ensures Resolve(Stream(items), codec) == Resolved(None)
  {
    StopIndexUnique(items, |items|);
    assert items[..|items|] == items;
    NoChunks(items);
  }

  /** The test is on the number of chunks, not bytes: empty chunks still give a JPEG data URI, of no bytes. */
  lemma EmptyChunksGiveEmptyJpeg(items: seq<StreamItem>, codec: Codec)
    requires !ScanStream(items).faulted && |ScanStream(items).chunks| > 0
    requires TotalLength(ScanStream(items).chunks) == 0
    ensures Resolve(Stream(items), codec) == Resolved(Some(ToDataUri(JpegMime, codec.encode([]))))
  {
    assert Flatten(ScanStream(items).chunks) == [];
  }

  /** A throw from the iterator before any string makes the whole angle fail. */
  lemma StreamFaultThrows(items: seq<StreamItem>, k: nat, codec: Codec)
    requires k < |items| && items[k].Fault?
    requires forall j :: 0 <= j < k ==> !Stops(items[j])
    ensures Resolve(Stream(items), codec) == Threw
  {
    StopIndexUnique(items, k);
  }

  /**
   * Collected chunks win over a string that stopped collection: `imageUrl` becomes a JPEG
   * data URI whose payload decodes to the concatenated chunks.
   */
  lemma ChunksBecomeJpegUri(items: seq<StreamItem>, codec: Codec)
    requires ValidCodec(codec)
    requires !ScanStream(items).faulted && TotalLength(ScanStream(items).chunks) > 0
    ensures var r := Resolve(Stream(items), codec);
      && r.Resolved? && r.imageUrl.Some?
      && StartsWith(r.imageUrl.value, ToDataUri(JpegMime, ""))
      && codec.decode(Payload(r.imageUrl.value)) == Flatten(ScanStream(items).chunks)
  {
    var chunks := ScanStream(items).chunks;
    assert |chunks| > 0;
    var bytes := Flatten(chunks);
    var p := codec.encode(bytes);
    EncodedIsPayload(codec, bytes);
    ToDataUriImage("jpeg", p);
    assert "image/" + "jpeg" == JpegMime;
    PayloadOfImageUri("jpeg", p);
    var u := ToDataUri(JpegMime, p);
    assert u[..|ToDataUri(JpegMime, "")|] == ToDataUri(JpegMime, "");
  }

  /** The stream loop (`for await ... break`), proved equal to ScanStream. */
  method CollectStream(items: seq<StreamItem>) returns (chunks: seq<seq<Byte>>, url: Option<string>, faulted: bool)
    ensures Scan(chunks, url, faulted) == ScanStream(items)
  {
    chunks, url, faulted := [], None, false;
    var i := 0;
    while i < |items|
      invariant 0 <= i <= |items|
      invariant forall j :: 0 <= j < i ==> !Stops(items[j])
      invariant chunks == Chunks(items[..i])
      invariant url == None && !faulted
    {
      assert items[..i + 1][..i] == items[..i];
      match items[i] {
        case Chunk(b) =>
          chunks := chunks + [b];
        case Url(s) =>
          StopIndexUnique(items, i);
          url := Some(s);
          return;
        case Other =>
        case Fault =>
          StopIndexUnique(items, i);
          faulted := true;
          return;
      }
      i := i + 1;
    }
    StopIndexUnique(items, i);
    assert items[..i] == items;
  }

  /** `combined.set(chunk, offset)` at a running offset, proved equal to Flatten. */
  method Combine(chunks: seq<seq<Byte>>) returns (combined: array<Byte>)
    ensures fresh(combined)
    ensures combined[..] == Flatten(chunks)
  {
    var totalLength := TotalLength(chunks);
    combined := new Byte[totalLength];
    var offset := 0;
    var i := 0;
    while i < |chunks|
      invariant 0 <= i <= |chunks|
      invariant offset == TotalLength(chunks[..i]) <= totalLength
      invariant combined[..offset] == Flatten(chunks[..i])
    {
      var chunk := chunks[i];
      assert chunks[..i + 1][..i] == chunks[..i];
      TotalLengthPrefix(chunks, i + 1);
      forall j | 0 <= j < |chunk| {
        combined[offset + j] := chunk[j];
      }
      assert combined[..offset + |chunk|] == combined[..offset] + chunk;
      offset := offset + |chunk|;
      i := i + 1;
    }
    assert chunks[..i] == chunks;
  }
}

=== FILE: onboarding.dfy ===
/**
 * The onboarding page: four photo slots, the angle being captured, and the Continue
 * button that writes the slots to the photo store.
 */
module Onboarding {
  import opened Wrappers
  import opened App
  import opened Db

  /** The `photos` state: one optional file per angle. */
  datatype Slots = Slots(front: Option<File>, back: Option<File>, left: Option<File>, right: Option<File>)

  const EmptySlots := Slots(None, None, None, None)

  function Get(s: Slots, a: Angle): Option<File> {
    match a
    case Front => s.front
    case Back => s.back
    case Left => s.left
    case Right => s.right
  }

  /** The slots with the one for `a` replaced by `f`. */
  function Set(s: Slots, a: Angle, f: Option<File>): (t: Slots)
    ensures Get(t, a) == f
    ensures forall b :: b != a ==> Get(t, b) == Get(s, b)
  {
    match a
    case Front => s.(front := f)
    case Back => s.(back := f)
    case Left => s.(left := f)
    case Right => s.(right := f)
  }

  /** The number of filled slots among `angles`, counted left to right as `filter` does. */
  function CountFilled(s: Slots, angles: seq<Angle>): (n: nat)
    ensures n <= |angles|
  {
    if angles == [] then 0
    else CountFilled(s, angles[..|angles| - 1]) + (if Get(s, angles[|angles| - 1]).Some? then 1 else 0)
  }

  /** `completedCount` */
  function CompletedCount(s: Slots): (n: nat)
    ensures n <= 4
  {
    CountFilled(s, Angles)
  }

  /** `progress`: (count / 4) * 100 is exact for a count of 0 to 4. */
  function Progress(s: Slots): (p: nat)
    ensures p <= 100 && p % 25 == 0
  {
    CompletedCount(s) * 25
  }

  /** Every one of the four slots holds a file. */
  predicate AllUploaded(s: Slots)
    ensures AllUploaded(s) ==> forall a :: Get(s, a).Some?
  {
    s.front.Some? && s.back.Some? && s.left.Some? && s.right.Some?
  }

  /** The angle after `a` in capture order; the last angle stays where it is. */
  function NextAngle(a: Angle): (b: Angle)
    ensures Rank(b) == if Rank(a) < |Angles| - 1 then Rank(a) + 1 else Rank(a)
  {
    if Rank(a) < |Angles| - 1 then Angles[Rank(a) + 1] else a
  }

  /** The photo store after the Continue loop has saved the filled slots among `angles`. */
  function SaveAll(m: map<string, PhotoRecord>, s: Slots, now: int, angles: seq<Angle>): (r: map<string, PhotoRecord>)
    ensures m.Keys <= r.Keys <= m.Keys + AngleNames
  {
    if angles == [] then m
    else
      var a := angles[|angles| - 1];
      var m' := SaveAll(m, s, now, angles[..|angles| - 1]);
      if Get(s, a).Some? then PutPhoto(m', PhotoRecord(Name(a), Get(s, a).value, now)) else m'
  }

  // ---------------------------------------------------------------- properties

  lemma AllUploadedIff(s: Slots)
    ensures AllUploaded(s) <==> forall a :: Get(s, a).Some?
  {
    if !AllUploaded(s) {
      if s.front.None? { assert Get(s, Front).None?; }
      else if s.back.None? { assert Get(s, Back).None?; }
      else if s.left.None? { assert Get(s, Left).None?; }
      else { assert Get(s, Right).None?; }
    }
  }

  lemma {:induction false} CountFilledAfterSet(s: Slots, a: Angle, f: Option<File>, angles: seq<Angle>)
    requires forall i, j :: 0 <= i < j < |angles| ==> angles[i] != angles[j]
    ensures CountFilled(Set(s, a, f), angles) + (if a in angles && Get(s, a).Some? then 1 else 0)
         == CountFilled(s, angles) + (if a in angles && f.Some? then 1 else 0)
  {
    if angles != [] {
      var n := |angles| - 1;
      CountFilledAfterSet(s, a, f, angles[..n]);
      assert a in angles <==> a in angles[..n] || a == angles[n];
      if a == angles[n] {
        assert a !in angles[..n];
      }
    }
  }

  /** Filling an empty slot adds one to the count; emptying a filled slot takes one away. */
  lemma CountAfterSet(s: Slots, a: Angle, f: Option<File>)
    ensures CompletedCount(Set(s, a, f)) + (if Get(s, a).Some? then 1 else 0)
         == CompletedCount(s) + (if f.Some? then 1 else 0)
  {
    assert Angles[Rank(a)] == a;
    CountFilledAfterSet(s, a, f, Angles);
  }

  /** The count is 4, and the progress 100, exactly when every slot is filled. */
  lemma CompletedIffAllUploaded(s: Slots)
    ensures CompletedCount(s) <= 4
    ensures CompletedCount(s) == 4 <==> AllUploaded(s)
    ensures Progress(s) == 100 <==> AllUploaded(s)
    ensures CompletedCount(EmptySlots) == 0
  {
    var ab, abl := [Front, Back], [Front, Back, Left];
    assert Angles[..|Angles| - 1] == abl;
    assert abl[..|abl| - 1] == ab;
    assert ab[..|ab| - 1] == [Front];
    assert [Front][..0] == [];
    assert CountFilled(s, [Front]) == (if s.front.Some? then 1 else 0);
    assert CountFilled(s, ab) == CountFilled(s, [Front]) + (if s.back.Some? then 1 else 0);
    assert CountFilled(s, abl) == CountFilled(s, ab) + (if s.left.Some? then 1 else 0);
  }

  lemma {:induction false} SaveAllAngle(m: map<string, PhotoRecord>, s: Slots, now: int, angles: seq<Angle>, a: Angle)
    ensures PhotoOf(SaveAll(m, s, now, angles), Name(a)) ==
      if a in angles && Get(s, a).Some? then Get(s, a) else PhotoOf(m, Name(a))
  {
    if angles != [] {
      var n := |angles| - 1;
      SaveAllAngle(m, s, now, angles[..n], a);
      var b := angles[n];
      NameInjective(a, b);
      assert a in angles <==> a in angles[..n] || a == b;
    }
  }

  lemma {:induction false} SaveAllOtherKey(m: map<string, PhotoRecord>, s: Slots, now: int, angles: seq<Angle>, k: string)
    requires k !in AngleNames
    ensures PhotoOf(SaveAll(m, s, now, angles), k) == PhotoOf(m, k)
  {
    if angles != [] {
      SaveAllOtherKey(m, s, now, angles[..|angles| - 1], k);
      NameInjective(angles[|angles| - 1], angles[|angles| - 1]);
    }
  }

  /**
   * Continue with every slot filled stores each angle's file under that angle's name and
   * leaves every other key of the store as it was.
   */
  lemma ContinueStoresEverySlot(m: map<string, PhotoRecord>, s: Slots, now: int)
    requires AllUploaded(s)
    ensures forall a :: PhotoOf(SaveAll(m, s, now, Angles), Name(a)) == Get(s, a)
    ensures forall k :: k !in AngleNames ==> PhotoOf(SaveAll(m, s, now, Angles), k) == PhotoOf(m, k)
  {
    AllUploadedIff(s);
    forall a ensures PhotoOf(SaveAll(m, s, now, Angles), Name(a)) == Get(s, a) {
      SaveAllAngle(m, s, now, Angles, a);
      assert Angles[Rank(a)] == a;
    }
    forall k | k !in AngleNames ensures PhotoOf(SaveAll(m, s, now, Angles), k) == PhotoOf(m, k) {
      SaveAllOtherKey(m, s, now, Angles, k);
    }
  }

  lemma {:induction false} SaveAllKeyedByAngle(m: map<string, PhotoRecord>, s: Slots, now: int, angles: seq<Angle>)
    requires KeyedByAngle(m)
    ensures KeyedByAngle(SaveAll(m, s, now, angles))
  {
    if angles != [] {
      SaveAllKeyedByAngle(m, s, now, angles[..|angles| - 1]);
    }
  }

  // ---------------------------------------------------------------- the page

  class OnboardingPage {
    var photos: Slots
    var currentAngle: Angle

    /** The initial state: every slot empty, capturing the front. */
    constructor ()
      ensures photos == EmptySlots && currentAngle == Front
    {
      photos := EmptySlots;
      currentAngle := Front;
    }

    /** `handleFileChange`: no file changes nothing; a file fills the current slot and moves on. */
    method HandleFileChange(file: Option<File>)
      modifies this
      ensures file.None? ==> photos == old(photos) && currentAngle == old(currentAngle)
      ensures file.Some? ==> photos == Set(old(photos), old(currentAngle), file)
      ensures file.Some? ==> currentAngle == NextAngle(old(currentAngle))
    {
      if file.None? {
        return;
      }
      photos := Set(photos, currentAngle, file);
      var currentIndex := Rank(currentAngle);
      if currentIndex < |Angles| - 1 {
        currentAngle := Angles[currentIndex + 1];
      }
    }

    /** "Remove and retake": empties the current slot only. */
    method RemoveCurrent()
      modifies this
      ensures photos == Set(old(photos), old(currentAngle), None)
      ensures currentAngle == old(currentAngle)
    {
      photos := Set(photos, currentAngle, None);
    }

    /** An angle pill: changes the current angle only. */
    method SelectAngle(a: Angle)
      modifies this
      ensures currentAngle == a && photos == old(photos)
    {
      currentAngle := a;
    }

    /**
     * `handleContinue`: with a slot empty nothing is saved; otherwise the four slots are
     * saved in the order front, back, left, right and the page moves to the upload page.
     * `saved` lists the angles in the order they were written.
     */
    method HandleContinue(store: PhotoStore, now: int) returns (saved: seq<Angle>, next: Option<Route>)
      requires store.Valid()
      modifies store
      ensures store.Valid()
      ensures !AllUploaded(photos) ==> saved == [] && next == None && store.records == old(store.records)
      ensures AllUploaded(photos) ==> saved == Angles && next == Some(UploadPage)
      ensures AllUploaded(photos) ==> store.records == SaveAll(old(store.records), photos, now, Angles)
    {
      saved := [];
      next := None;
      if !AllUploaded(photos) {
        return;
      }
      AllUploadedIff(photos);
      var i := 0;
      while i < |Angles|
        invariant 0 <= i <= |Angles|
        invariant saved == Angles[..i]
        invariant store.Valid()
        invariant store.records == SaveAll(old(store.records), photos, now, Angles[..i])
      {
        var a := Angles[i];
        assert Angles[..i + 1][..i] == Angles[..i];
        var file := Get(photos, a);
        if file.Some? {
          store.SavePhoto(Name(a), file.value, now);
          saved := saved + [a];
        }
        i := i + 1;
      }
      next := Some(UploadPage);
    }
  }
}

=== FILE: results.dfy ===
/**
 * The results page: a carousel over the stored try-on results with wrap-around
 * navigation, and the download of the image on display.
 */
module Results {
  import opened Wrappers
  import opened Text
  import opened App
  import opened Db

  /**
   * JavaScript `%` for a positive divisor (here always a list length): the magnitude is
   * |a| mod n and the sign is the dividend's, unlike Dafny's Euclidean `%`.
   */
  function JsRemainder(a: int, n: int): (r: int)
    requires n > 0
    ensures a >= 0 ==> 0 <= r < n
    ensures a < 0 ==> -n < r <= 0
    ensures exists q: int :: a == q * n + r
  {
    if a >= 0 then
      assert a == (a / n) * n + a % n;
      a % n
    else
      var q := -((-a) / n);
      assert -a == ((-a) / n) * n + (-a) % n;
      assert a == q * n + -((-a) % n);
      -((-a) % n)
  }

  /** The index the right arrow moves to: one on, wrapping from the last to the first. */
  function NextIndex(i: int, n: int): (j: int)
    requires n > 0
    ensures 0 <= i < n ==> 0 <= j < n
  {
    JsRemainder(i + 1, n)
  }

  /** The index the left arrow moves to: one back, wrapping from the first to the last. */
  function PrevIndex(i: int, n: int): (j: int)
    requires n > 0
    ensures 0 <= i < n ==> 0 <= j < n
  {
    JsRemainder(i - 1 + n, n)
  }

  /** `k` presses of the next arrow. */
  function Advance(i: int, n: int, k: nat): int
    requires n > 0
  {
    if k == 0 then i else NextIndex(Advance(i, n, k - 1), n)
  }

  /** `link.download` on both branches of `handleDownload`. */
  function DownloadFilename(angle: string): string {
    "fitmirror-" + angle + ".png"
  }

  /** A data URL is saved as it is; any other URL is fetched into a blob first. */
  datatype DownloadPlan = Direct(href: string, filename: string) | FetchFirst(url: string, filename: string)

  /** `handleDownload`: nothing when there is no current result. */
  function PlanDownload(results: seq<TryOnResult>, i: int): (r: Option<DownloadPlan>)
    ensures r.Some? <==> 0 <= i < |results|
    ensures r.Some? ==> r.value.filename == DownloadFilename(results[i].angle)
  {
    if 0 <= i < |results| then
      var r := results[i];
      Some(if StartsWith(r.imageUrl, "data:") then Direct(r.imageUrl, DownloadFilename(r.angle))
           else FetchFirst(r.imageUrl, DownloadFilename(r.angle)))
    else None
  }

  // ---------------------------------------------------------------- properties

  lemma ModWithinTwo(x: int, n: int)
    requires 0 <= x < 2 * n
    ensures x % n == if x < n then x else x - n
  {
  }

  /** Both arrows keep an index in range, and step by one with wrap-around. */
  lemma NavigationStaysInRange(i: int, n: int)
    requires 0 <= i < n
    ensures 0 <= NextIndex(i, n) < n && 0 <= PrevIndex(i, n) < n
    ensures NextIndex(i, n) == if i == n - 1 then 0 else i + 1
    ensures PrevIndex(i, n) == if i == 0 then n - 1 else i - 1
  {
    ModWithinTwo(i + 1, n);
    ModWithinTwo(i - 1 + n, n);
  }

  /** The two arrows undo each other. */
  lemma PrevUndoesNext(i: int, n: int)
    requires 0 <= i < n
    ensures PrevIndex(NextIndex(i, n), n) == i
    ensures NextIndex(PrevIndex(i, n), n) == i
  {
    NavigationStaysInRange(i, n);
    NavigationStaysInRange(NextIndex(i, n), n);
    NavigationStaysInRange(PrevIndex(i, n), n);
  }

  /** Within one cycle, `k` presses move `k` places forward, wrapping once past the end. */
  lemma {:induction false} AdvanceWithinCycle(i: int, n: int, k: nat)
    requires 0 <= i < n && k <= n
    ensures Advance(i, n, k) == if i + k < n then i + k else i + k - n
  {
    if k > 0 {
      AdvanceWithinCycle(i, n, k - 1);
      NavigationStaysInRange(Advance(i, n, k - 1), n);
    }
  }

  /** `n` presses of the next arrow come back to the start, and no fewer do. */
  lemma FullCycleReturns(i: int, n: int)
    requires 0 <= i < n
    ensures Advance(i, n, n) == i
    ensures forall k: nat :: 0 < k < n ==> Advance(i, n, k) != i
  {
    AdvanceWithinCycle(i, n, n);
    forall k: nat | 0 < k < n ensures Advance(i, n, k) != i {
      AdvanceWithinCycle(i, n, k);
    }
  }

  /** The file name carries the angle and the .png extension on both branches. */
  lemma DownloadFilenameShape(results: seq<TryOnResult>, i: int)
    requires 0 <= i < |results|
    ensures var p := PlanDownload(results, i).value;
      && p.filename == DownloadFilename(results[i].angle)
      && StartsWith(p.filename, "fitmirror-") && EndsWith(p.filename, ".png")
      && p.filename[10..|p.filename| - 4] == results[i].angle
  {
    var f := DownloadFilename(results[i].angle);
    assert f[..10] == "fitmirror-";
    assert f[|f| - 4..] == ".png";
  }

  /** No fetch happens for a data URL, and every other URL is fetched. */
  lemma DirectExactlyForDataUrls(results: seq<TryOnResult>, i: int)
    ensures PlanDownload(results, i).None? <==> !(0 <= i < |results|)
    ensures 0 <= i < |results| ==>
      (PlanDownload(results, i).value.Direct? <==> StartsWith(results[i].imageUrl, "data:"))
    ensures 0 <= i < |results| && PlanDownload(results, i).value.FetchFirst? ==>
      PlanDownload(results, i).value.url == results[i].imageUrl
  {
  }

  // ---------------------------------------------------------------- the page

  class ResultsPage {
    var results: seq<TryOnResult>
    var currentIndex: int

    /** The index points at a result whenever there is one. */
    ghost predicate Valid()
      reads this
    {
      0 <= currentIndex && (currentIndex < |results| || currentIndex == 0)
    }

    constructor ()
      ensures results == [] && currentIndex == 0 && Valid()
    {
      results := [];
      currentIndex := 0;
    }

    /** The mount effect: missing results send the user to onboarding. */
    method Load(store: ResultsStore) returns (redirect: Option<Route>)
      requires currentIndex == 0
      modifies this
      ensures Valid() && currentIndex == 0
      ensures redirect.Some? <==> LatestResults(store.records).None?
      ensures redirect.Some? ==> redirect.value == OnboardingPage && results == old(results)
      ensures redirect.None? ==> results == LatestResults(store.records).value
    {
      var data := store.GetTryonResults();
      if data.None? {
        return Some(OnboardingPage);
      }
      results := data.value;
      return None;
    }

    /** The right arrow, shown only when there is more than one result. */
    method NextImage()
      requires Valid() && |results| > 1
      modifies this
      ensures Valid() && results == old(results)
      ensures currentIndex == NextIndex(old(currentIndex), |results|)
    {
      NavigationStaysInRange(currentIndex, |results|);
      currentIndex := JsRemainder(currentIndex + 1, |results|);
    }

    /** The left arrow, shown only when there is more than one result. */
    method PrevImage()
      requires Valid() && |results| > 1
      modifies this
      ensures Valid() && results == old(results)
      ensures currentIndex == PrevIndex(old(currentIndex), |results|)
    {
      NavigationStaysInRange(currentIndex, |results|);
      currentIndex := JsRemainder(currentIndex - 1 + |results|, |results|);
    }

    /** A thumbnail, shown only when there is more than one result. */
    method SelectThumbnail(index: int)
      requires Valid() && |results| > 1 && 0 <= index < |results|
      modifies this
      ensures Valid() && results == old(results) && currentIndex == index
    {
      currentIndex := index;
    }
  }
}

=== FILE: text.dfy ===
/** String helpers with the semantics of the JavaScript built-ins the application uses. */
module Text {
  import opened Wrappers

  /** `s.startsWith(prefix)` */
  predicate StartsWith(s: string, prefix: string) {
    |prefix| <= |s| && s[..|prefix|] == prefix
  }

  /** `s.endsWith(suffix)` */
  predicate EndsWith(s: string, suffix: string) {
    |suffix| <= |s| && s[|s| - |suffix|..] == suffix
  }

  /** JavaScript truthiness of a value that is a string, null or undefined. */
  predicate Truthy(o: Option<string>) {
    o.Some? && o.value != ""
  }

  /** `sub` sits in `s` at position `i`. */
  ghost predicate OccursAt(s: string, sub: string, i: int) {
    0 <= i && i + |sub| <= |s| && s[i..i + |sub|] == sub
  }

  /** `s.includes(sub)`: scans the start positions from left to right. */
  predicate Contains(s: string, sub: string)
    ensures Contains(s, sub) ==> |sub| <= |s|
    ensures sub == [] ==> Contains(s, sub)
    decreases |s|
  {
    if |sub| > |s| then false
    else s[..|sub|] == sub || (|s| > 0 && Contains(s[1..], sub))
  }

  lemma {:induction false} OccursAtContains(s: string, sub: string, i: int)
    requires OccursAt(s, sub, i)
    ensures Contains(s, sub)
    decreases i
  {
    if i > 0 {
      assert s[1..][i - 1..i - 1 + |sub|] == s[i..i + |sub|];
      OccursAtContains(s[1..], sub, i - 1);
    } else {
      assert s[..|sub|] == sub;
    }
  }

  lemma {:induction false} ContainsOccurs(s: string, sub: string)
    requires Contains(s, sub)
    ensures exists i :: OccursAt(s, sub, i)
    decreases |s|
  {
    if s[..|sub|] == sub {
      assert OccursAt(s, sub, 0);
    } else {
      ContainsOccurs(s[1..], sub);
      var i :| OccursAt(s[1..], sub, i);
      assert s[1..][i..i + |sub|] == s[i + 1..i + 1 + |sub|];
      assert OccursAt(s, sub, i + 1);
    }
  }

  /** `includes` holds exactly when the needle occurs at some position. */
  lemma ContainsIff(s: string, sub: string)
    ensures Contains(s, sub) <==> exists i :: OccursAt(s, sub, i)
  {
    if Contains(s, sub) {
      ContainsOccurs(s, sub);
    }
    forall i | OccursAt(s, sub, i)
      ensures Contains(s, sub)
    {
      OccursAtContains(s, sub, i);
    }
  }

  /** Contains is monotone in the needle: whoever contains `sub` contains each of its prefixes. */
  lemma {:induction false} ContainsPrefixOfNeedle(s: string, sub: string, k: nat)
    requires k <= |sub| && Contains(s, sub)
    ensures Contains(s, sub[..k])
    decreases |s|
  {
    if s[..|sub|] == sub {
      assert s[..k] == sub[..k];
    } else {
      ContainsPrefixOfNeedle(s[1..], sub, k);
    }
  }

  function DigitChar(d: int): char
    requires 0 <= d < 10
  {
    "0123456789"[d]
  }

  /** The decimal text of a number, as a template literal `${n}` writes it. */
  function Decimal(n: nat): (r: string)
    ensures |r| > 0
    ensures forall i :: 0 <= i < |r| ==> '0' <= r[i] <= '9'
    ensures |r| > 1 ==> r[0] != '0'
  {
    if n < 10 then [DigitChar(n)] else Decimal(n / 10) + [DigitChar(n % 10)]
  }

  /** Reading decimal digits back as a number. */
  function DecimalValue(s: string): nat
    requires forall i :: 0 <= i < |s| ==> '0' <= s[i] <= '9'
  {
    if s == [] then 0 else 10 * DecimalValue(s[..|s| - 1]) + (s[|s| - 1] as int - '0' as int)
  }

  lemma {:induction false} DecimalRoundTrip(n: nat)
    ensures DecimalValue(Decimal(n)) == n
  {
    if n >= 10 {
      var r := Decimal(n);
      assert r[..|r| - 1] == Decimal(n / 10);
      DecimalRoundTrip(n / 10);
    }
  }
}

=== FILE: tryon.dfy ===
/**
 * The try-on request handler (POST /api/tryon). External collaborators are parameters
 * collected in Env: the API token, base64, the HEIC transcoder, the product-URL fetch,
 * the model call and the re-fetch of a generated image.
 */
module TryOn {
  import opened Wrappers
  import opened Text
  import opened Bytes
  import opened DataUri
  import opened Heic
  import opened ModelOutput
  import opened App

  /** The JSON body; a missing or null field is None. */
  datatype Request = Request(
    userPhotos: Option<map<string, string>>,
    productUrl: Option<string>,
    productImage: Option<string>)

  /** `{ results }` with status 200, or `{ error }` with a status code. */
  datatype Response = Ok(results: seq<TryOnResult>) | Error(status: nat, message: string)

  /** The product-URL fetch: a response, or a thrown error (with its message if it is an Error). */
  datatype ProductFetch =
    | Fetched(status: nat, statusText: string, body: seq<Byte>, mime: string)
    | FetchThrew(message: Option<string>)

  /** The re-fetch of a generated image; its status is never looked at. */
  datatype ImageFetch = Downloaded(body: seq<Byte>, mime: string) | DownloadThrew

  /** The `input` object passed to the model. */
  datatype ModelInput = ModelInput(
    humanImg: string, garmImg: string, garmentDes: string,
    isChecked: bool, isCheckedCrop: bool, denoiseSteps: nat, seed: nat)

  datatype RunOutcome = Returned(output: Output) | RunThrew

  /** The environment: the call for each angle and the re-fetch for each angle are separate calls. */
  datatype Env = Env(
    apiToken: Option<string>,
    codec: Codec,
    transcode: Transcoder,
    fetchProduct: string -> ProductFetch,
    run: (Angle, ModelInput) -> RunOutcome,
    fetchImage: (Angle, string) -> ImageFetch)

  const ErrUserPhotos := "User photos are required"
  const ErrProduct := "Product image or URL is required"
  const ErrToken := "Replicate API token not configured"
  const ErrNoResults := "Failed to generate any try-on images"
  const ErrFetchDefault := "Failed to fetch product image from URL"
  const AngleError := "Failed to generate try-on for this angle"

  const BlockedHint := "The website is blocking access. Try using a direct image URL (right-click image → 'Copy Image Address') or download and upload the image instead."
  const NotFoundHint := "The image was not found at this URL. Please check the URL and try again."
  const GenericHint := "Please make sure you're using a direct image URL (ending in .jpg, .png, etc.) and not a product page URL."

  /** `response.ok` */
  predicate IsOk(status: nat) {
    200 <= status <= 299
  }

  function FetchErrorPrefix(status: nat, statusText: string): string {
    "Failed to fetch image from URL (" + Decimal(status) + " " + statusText + "). "
  }

  function FetchErrorMessage(status: nat, statusText: string): string {
    FetchErrorPrefix(status, statusText)
      + (if status == 403 then BlockedHint else if status == 404 then NotFoundHint else GenericHint)
  }

  function Convert(env: Env, image: string): string {
    ConvertHeicToJpeg(env.codec, env.transcode, image)
  }

  /** `convertedUserPhotos`: every submitted photo, under its own key, normalised. */
  function ConvertedPhotos(photos: map<string, string>, env: Env): map<string, string> {
    map k | k in photos :: Convert(env, photos[k])
  }

  /** The garment image: the upload wins; otherwise the URL is fetched. */
  function SelectProduct(req: Request, env: Env): (r: Result<string, Response>)
    ensures r.Failure? ==> r.error.Error? && r.error.status == 400
    ensures Truthy(req.productImage) ==> r.Success?
    ensures !Truthy(req.productImage) && !Truthy(req.productUrl) ==> r.Failure?
  {
    if Truthy(req.productImage) then Success(Convert(env, req.productImage.value))
    else if Truthy(req.productUrl) then
      match env.fetchProduct(req.productUrl.value)
      case FetchThrew(message) =>
        Failure(Error(400, if message.Some? then message.value else ErrFetchDefault))
      case Fetched(status, statusText, body, mime) =>
        if !IsOk(status) then Failure(Error(400, FetchErrorMessage(status, statusText)))
        else Success(ToDataUri(if mime != "" then mime else "image/jpeg", env.codec.encode(body)))
    else Failure(Error(400, ErrProduct))
  }

  /** A successful URL fetch yields the downloaded body as a data URI, `image/jpeg` when untyped, not normalised. */
  lemma FetchedProductIsDataUri(req: Request, env: Env)
    requires !Truthy(req.productImage) && Truthy(req.productUrl)
    requires env.fetchProduct(req.productUrl.value).Fetched? && IsOk(env.fetchProduct(req.productUrl.value).status)
    ensures var f := env.fetchProduct(req.productUrl.value);
      SelectProduct(req, env) == Success(ToDataUri(if f.mime != "" then f.mime else "image/jpeg", env.codec.encode(f.body)))
  {
  }

  /** A throwing URL fetch answers 400 with the exception's message, or the default one. */
  lemma ThrownFetchMessage(req: Request, env: Env)
    requires !Truthy(req.productImage) && Truthy(req.productUrl)
    requires env.fetchProduct(req.productUrl.value).FetchThrew?
    ensures var m := env.fetchProduct(req.productUrl.value).message;
      SelectProduct(req, env) == Failure(Error(400, if m.Some? then m.value else ErrFetchDefault))
  {
  }

  /** The angle is processed: its name has a converted photo that is not the empty string. */
  predicate Present(converted: map<string, string>, a: Angle) {
    Name(a) in converted && converted[Name(a)] != ""
  }

  function InputFor(photo: string, product: string): ModelInput {
    ModelInput(photo, product, "a clothing item", true, false, 30, 42)
  }

  function ErrorEntry(a: Angle, photo: string): TryOnResult {
    TryOnResult(Name(a), photo, Some(AngleError))
  }

  /** The http re-fetch and the `imageUrl || convertedUserPhotos[angle]` fallback. */
  function FinalImageUrl(a: Angle, resolved: Option<string>, photo: string, env: Env): (r: string)
    ensures photo != "" ==> r != ""
    ensures r == photo || (Truthy(resolved) && r == resolved.value) || StartsWith(r, "data:")
  {
    if Truthy(resolved) && StartsWith(resolved.value, "http") then
      match env.fetchImage(a, resolved.value)
      case Downloaded(body, mime) =>
        ToDataUri(if mime != "" then mime else "image/png", env.codec.encode(body))
      case DownloadThrew => photo
    else if Truthy(resolved) then resolved.value
    else photo
  }

  /** The body of the angle loop for one present angle, including its catch. */
  function AngleEntry(a: Angle, photo: string, product: string, env: Env): (r: TryOnResult)
    ensures r.angle == Name(a)
    ensures r.error.Some? ==> r.error.value == AngleError && r.imageUrl == photo
  {
    match env.run(a, InputFor(photo, product))
    case RunThrew => ErrorEntry(a, photo)
    case Returned(output) =>
      match Resolve(output, env.codec)
      case Threw => ErrorEntry(a, photo)
      case Resolved(u) => TryOnResult(Name(a), FinalImageUrl(a, u, photo, env), None)
  }

  /** `results` after the loop has visited `angles`. */
  function Assemble(converted: map<string, string>, product: string, env: Env, angles: seq<Angle>): (r: seq<TryOnResult>)
    ensures |r| == |PresentAngles(converted, angles)| <= |angles|
  {
    if angles == [] then []
    else
      var a := angles[|angles| - 1];
      Assemble(converted, product, env, angles[..|angles| - 1])
        + (if Present(converted, a) then [AngleEntry(a, converted[Name(a)], product, env)] else [])
  }

  /** The angles among `angles` that have a photo, in the same order. */
  function PresentAngles(converted: map<string, string>, angles: seq<Angle>): (p: seq<Angle>)
    ensures |p| <= |angles|
    ensures forall a :: a in p <==> a in angles && Present(converted, a)
    ensures forall k :: 0 <= k < |p| ==> Present(converted, p[k])
  {
    if angles == [] then []
    else
      var a := angles[|angles| - 1];
      PresentAngles(converted, angles[..|angles| - 1]) + (if Present(converted, a) then [a] else [])
  }

  /** The whole handler, apart from the JSON-parse catch-all. */
  function Handle(req: Request, env: Env): (r: Response)
    ensures r.Error? ==> r.status == 400 || r.status == 500
    ensures r.Ok? ==> 0 < |r.results| <= 4
  {
    if req.userPhotos.None? then Error(400, ErrUserPhotos)
    else if !Truthy(req.productImage) && !Truthy(req.productUrl) then Error(400, ErrProduct)
    else if !Truthy(env.apiToken) then Error(500, ErrToken)
    else
      var converted := ConvertedPhotos(req.userPhotos.value, env);
      match SelectProduct(req, env)
      case Failure(response) => response
      case Success(product) =>
        var results := Assemble(converted, product, env, Angles);
        if |results| == 0 then Error(500, ErrNoResults) else Ok(results)
  }

  // ---------------------------------------------------------------- properties

  /** Missing photos are reported first, then a missing product, then a missing token. */
  lemma ValidationOrder(req: Request, env: Env)
    ensures req.userPhotos.None? ==> Handle(req, env) == Error(400, ErrUserPhotos)
    ensures req.userPhotos.Some? && !Truthy(req.productImage) && !Truthy(req.productUrl)
      ==> Handle(req, env) == Error(400, ErrProduct)
    ensures req.userPhotos.Some? && (Truthy(req.productImage) || Truthy(req.productUrl)) && !Truthy(env.apiToken)
      ==> Handle(req, env) == Error(500, ErrToken)
  {
  }

  /** An uploaded image is used even when a URL is given, and the URL is never fetched. */
  lemma UploadWinsOverUrl(req: Request, env: Env, anyFetch: string -> ProductFetch)
    requires Truthy(req.productImage)
    ensures SelectProduct(req, env) == Success(Convert(env, req.productImage.value))
    ensures Handle(req, env.(fetchProduct := anyFetch)) == Handle(req, env)
  {
    var env' := env.(fetchProduct := anyFetch);
    assert SelectProduct(req, env') == SelectProduct(req, env);
    if req.userPhotos.Some? {
      assert ConvertedPhotos(req.userPhotos.value, env') == ConvertedPhotos(req.userPhotos.value, env);
      var converted := ConvertedPhotos(req.userPhotos.value, env);
      var product := Convert(env, req.productImage.value);
      AssembleIgnoresProductFetch(converted, product, env, anyFetch, Angles);
    }
  }

  lemma {:induction false} AssembleIgnoresProductFetch(
    converted: map<string, string>, product: string, env: Env, anyFetch: string -> ProductFetch, angles: seq<Angle>)
    ensures Assemble(converted, product, env.(fetchProduct := anyFetch), angles) == Assemble(converted, product, env, angles)
  {
    if angles != [] {
      AssembleIgnoresProductFetch(converted, product, env, anyFetch, angles[..|angles| - 1]);
    }
  }

  /** A product fetch with a non-2xx status fails the request with 400 and a status-specific text. */
  lemma FailedProductFetch(req: Request, env: Env)
    requires req.userPhotos.Some? && !Truthy(req.productImage) && Truthy(req.productUrl) && Truthy(env.apiToken)
    requires env.fetchProduct(req.productUrl.value).Fetched?
    requires !IsOk(env.fetchProduct(req.productUrl.value).status)
    ensures var f := env.fetchProduct(req.productUrl.value);
      && Handle(req, env) == Error(400, FetchErrorMessage(f.status, f.statusText))
      && StartsWith(FetchErrorMessage(f.status, f.statusText), FetchErrorPrefix(f.status, f.statusText))
  {
    var f := env.fetchProduct(req.productUrl.value);
    var m := FetchErrorMessage(f.status, f.statusText);
    assert m[..|FetchErrorPrefix(f.status, f.statusText)|] == FetchErrorPrefix(f.status, f.statusText);
  }

  /** The message ends with the blocked text exactly for 403 and the not-found text exactly for 404. */
  lemma FetchMessageHints(status: nat, statusText: string)
    ensures EndsWith(FetchErrorMessage(status, statusText), BlockedHint) <==> status == 403
    ensures EndsWith(FetchErrorMessage(status, statusText), NotFoundHint) <==> status == 404
    ensures EndsWith(FetchErrorMessage(status, statusText), GenericHint) <==> status != 403 && status != 404
  {
    var p := FetchErrorPrefix(status, statusText);
    var hint := if status == 403 then BlockedHint else if status == 404 then NotFoundHint else GenericHint;
    var m := p + hint;
    assert m[|m| - |hint|..] == hint;
    // The three hints differ in their next-to-last character: 'd', 'n' and 'L'.
    assert BlockedHint[|BlockedHint| - 2] == 'd';
    assert NotFoundHint[|NotFoundHint| - 2] == 'n';
    assert GenericHint[|GenericHint| - 2] == 'L';
    assert m[|m| - 2] == hint[|hint| - 2];
    forall other | other in {BlockedHint, NotFoundHint, GenericHint} && other != hint
      ensures !EndsWith(m, other)
    {
      if |other| <= |m| {
        assert m[|m| - |other|..][|other| - 2] == m[|m| - 2];
      }
    }
  }

  lemma {:induction false} AssembleMatchesPresentAngles(
    converted: map<string, string>, product: string, env: Env, angles: seq<Angle>)
    ensures var r, p := Assemble(converted, product, env, angles), PresentAngles(converted, angles);
      && |r| == |p|
      && forall k :: 0 <= k < |r| ==> r[k] == AngleEntry(p[k], converted[Name(p[k])], product, env)
  {
    if angles != [] {
      AssembleMatchesPresentAngles(converted, product, env, angles[..|angles| - 1]);
    }
  }

  /** Strictly in the order front, back, left, right. */
  predicate InAngleOrder(s: seq<Angle>) {
    forall i, j :: 0 <= i < j < |s| ==> Rank(s[i]) < Rank(s[j])
  }

  lemma {:induction false} PresentAnglesInOrder(converted: map<string, string>, angles: seq<Angle>)
    requires InAngleOrder(angles)
    ensures InAngleOrder(PresentAngles(converted, angles))
  {
    if angles != [] {
      var n := |angles| - 1;
      assert InAngleOrder(angles[..n]);
      PresentAnglesInOrder(converted, angles[..n]);
      var q := PresentAngles(converted, angles[..n]);
      forall a | a in q ensures Rank(a) < Rank(angles[n]) {
        assert a in angles[..n];
        var i :| 0 <= i < n && angles[..n][i] == a;
        assert angles[i] == a;
      }
      var p := PresentAngles(converted, angles);
      assert p == q + (if Present(converted, angles[n]) then [angles[n]] else []);
      forall i, j | 0 <= i < j < |p| ensures Rank(p[i]) < Rank(p[j]) {
        if j < |q| {
          assert p[i] == q[i] && p[j] == q[j];
        } else {
          assert p[j] == angles[n];
          assert p[i] == q[i] && q[i] in q;
        }
      }
    }
  }

  /**
   * One entry per present angle, in the order front, back, left, right, each computed from
   * that angle alone; keys other than the four angles are never visited.
   */
  lemma ResultsFollowAngleOrder(converted: map<string, string>, product: string, env: Env)
    ensures var r, p := Assemble(converted, product, env, Angles), PresentAngles(converted, Angles);
      && |r| == |p| <= 4
      && (forall a :: a in p <==> Present(converted, a))
      && InAngleOrder(p)
      && (forall k :: 0 <= k < |r| ==> r[k] == AngleEntry(p[k], converted[Name(p[k])], product, env))
      && (forall k :: 0 <= k < |r| ==> r[k].angle in AngleNames)
  {
    AssembleMatchesPresentAngles(converted, product, env, Angles);
    PresentAnglesInOrder(converted, Angles);
    var p := PresentAngles(converted, Angles);
    forall a: Angle ensures a in Angles {
      assert Angles[Rank(a)] == a;
    }
    forall k | 0 <= k < |p| ensures Name(p[k]) in AngleNames {
      NameInjective(p[k], p[k]);
    }
  }

  /** An angle is present exactly when a non-empty photo was submitted under its key. */
  lemma PresentIffSubmitted(photos: map<string, string>, env: Env, a: Angle)
    requires ValidCodec(env.codec)
    ensures Present(ConvertedPhotos(photos, env), a) <==> Name(a) in photos && photos[Name(a)] != ""
  {
    if Name(a) in photos {
      var c := Convert(env, photos[Name(a)]);
      assert c == photos[Name(a)] || StartsWith(c, ToDataUri(JpegMime, ""));
      if photos[Name(a)] == "" {
        ConvertEmpty(env.codec, env.transcode);
      }
    }
  }

  /** A failing model call leaves the converted photo and the error text in that angle's entry. */
  lemma AngleFailureFallsBack(a: Angle, photo: string, product: string, env: Env)
    requires env.run(a, InputFor(photo, product)) == RunThrew
    ensures AngleEntry(a, photo, product, env) == TryOnResult(Name(a), photo, Some(AngleError))
  {
  }

  /** What the model does for one angle never changes another angle's entry. */
  lemma OtherAnglesUnaffected(a: Angle, b: Angle, photo: string, product: string, env: Env, outcome: RunOutcome)
    requires a != b
    ensures var env' := env.(run := (x: Angle, i: ModelInput) => if x == a then outcome else env.run(x, i));
      AngleEntry(b, photo, product, env') == AngleEntry(b, photo, product, env)
  {
  }

  /** Every entry is labelled with its angle and carries a non-empty image. */
  lemma AngleEntryRenderable(a: Angle, photo: string, product: string, env: Env)
    requires photo != ""
    ensures AngleEntry(a, photo, product, env).angle == Name(a)
    ensures AngleEntry(a, photo, product, env).imageUrl != ""
    ensures AngleEntry(a, photo, product, env).error.Some? ==> AngleEntry(a, photo, product, env).imageUrl == photo
  {
  }

  /** An http URL from the model is always replaced: by a data URI, or by the photo if the re-fetch throws. */
  lemma HttpUrlReplaced(a: Angle, url: string, photo: string, env: Env)
    requires StartsWith(url, "http")
    ensures var r := FinalImageUrl(a, Some(url), photo, env);
      && (env.fetchImage(a, url).DownloadThrew? ==> r == photo)
      && (env.fetchImage(a, url).Downloaded? ==> StartsWith(r, "data:"))
      && (env.fetchImage(a, url).Downloaded? ==>
            var f := env.fetchImage(a, url);
            r == ToDataUri(if f.mime != "" then f.mime else "image/png", env.codec.encode(f.body)))
  {
    var r := FinalImageUrl(a, Some(url), photo, env);
    if env.fetchImage(a, url).Downloaded? {
      assert r[..5] == "data:";
    }
  }

  /** With no usable `imageUrl` (undefined or empty) the entry shows the converted photo. */
  lemma MissingUrlFallsBackToPhoto(a: Angle, resolved: Option<string>, photo: string, env: Env)
    requires !Truthy(resolved)
    ensures FinalImageUrl(a, resolved, photo, env) == photo
  {
  }

  /** A non-http URL from the model is kept as it is. */
  lemma NonHttpUrlKept(a: Angle, url: string, photo: string, env: Env)
    requires url != "" && !StartsWith(url, "http")
    ensures FinalImageUrl(a, Some(url), photo, env) == url
  {
  }

  /** A successful response holds between one and four entries, each with an angle name and an image. */
  lemma OkResponseShape(req: Request, env: Env)
    requires Handle(req, env).Ok?
    ensures var r := Handle(req, env).results;
      && 0 < |r| <= 4
      && forall k :: 0 <= k < |r| ==> r[k].angle in AngleNames && r[k].imageUrl != ""
  {
    var converted := ConvertedPhotos(req.userPhotos.value, env);
    var product := SelectProduct(req, env).value;
    ResultsFollowAngleOrder(converted, product, env);
    var r := Handle(req, env).results;
    var p := PresentAngles(converted, Angles);
    forall k | 0 <= k < |r| ensures r[k].imageUrl != "" {
      AngleEntryRenderable(p[k], converted[Name(p[k])], product, env);
    }
  }

  /** Once validation and the product pass, the request fails with 500 exactly when no angle is present. */
  lemma EmptyResultsIs500(req: Request, env: Env)
    requires req.userPhotos.Some? && Truthy(env.apiToken) && SelectProduct(req, env).Success?
    requires Truthy(req.productImage) || Truthy(req.productUrl)
    ensures Handle(req, env) == Error(500, ErrNoResults)
        <==> forall a :: !Present(ConvertedPhotos(req.userPhotos.value, env), a)
  {
    var converted := ConvertedPhotos(req.userPhotos.value, env);
    var r := Assemble(converted, SelectProduct(req, env).value, env, Angles);
    var p := PresentAngles(converted, Angles);
    assert Handle(req, env) == if |r| == 0 then Error(500, ErrNoResults) else Ok(r);
    forall a | Present(converted, a)
      ensures a in p
    {
      assert Angles[Rank(a)] == a;
    }
    if |p| > 0 {
      assert Present(converted, p[0]);
    }
  }

  // ---------------------------------------------------------------- the handler as code

  /** The `Object.entries(userPhotos)` loop. */
  method ConvertPhotos(photos: map<string, string>, env: Env) returns (converted: map<string, string>)
    ensures converted.Keys == photos.Keys
    ensures forall k :: k in converted ==> converted[k] == ConvertHeicToJpeg(env.codec, env.transcode, photos[k])
  {
    converted := map[];
    var remaining := photos.Keys;
    while remaining != {}
      invariant remaining <= photos.Keys
      invariant converted.Keys == photos.Keys - remaining
      invariant forall k :: k in converted ==> converted[k] == ConvertHeicToJpeg(env.codec, env.transcode, photos[k])
      decreases remaining
    {
      var k :| k in remaining;
      converted := converted[k := Convert(env, photos[k])];
      remaining := remaining - {k};
    }
  }

  /** One iteration of the angle loop. */
  method ProcessAngle(a: Angle, photo: string, product: string, env: Env) returns (entry: TryOnResult)
    ensures entry == AngleEntry(a, photo, product, env)
  {
    var outcome := env.run(a, InputFor(photo, product));
    if outcome.RunThrew? {
      return ErrorEntry(a, photo);
    }
    var imageUrl: Option<string> := None;
    match outcome.output {
      case Direct(s) =>
        imageUrl := Some(s);
      case Fields(o, u) =>
        imageUrl := if Truthy(o) then o else u;
      case Stream(items) =>
        var chunks, url, faulted := CollectStream(items);
        if faulted {
          return ErrorEntry(a, photo);
        }
        imageUrl := url;
        if |chunks| > 0 {
          var combined := Combine(chunks);
          imageUrl := Some(ToDataUri(JpegMime, env.codec.encode(combined[..])));
        }
      case Nothing =>
    }
    assert Resolve(outcome.output, env.codec) == Resolved(imageUrl);
    if Truthy(imageUrl) && StartsWith(imageUrl.value, "http") {
      match env.fetchImage(a, imageUrl.value) {
        case Downloaded(body, mime) =>
          imageUrl := Some(ToDataUri(if mime != "" then mime else "image/png", env.codec.encode(body)));
        case DownloadThrew =>
          imageUrl := Some(photo);
      }
    }
    entry := TryOnResult(Name(a), if Truthy(imageUrl) then imageUrl.value else photo, None);
  }

  /** One more angle appends that angle's entry when it is present, and nothing otherwise. */
  lemma AssembleSnoc(converted: map<string, string>, product: string, env: Env, angles: seq<Angle>, a: Angle)
    ensures Assemble(converted, product, env, angles + [a])
      == Assemble(converted, product, env, angles)
         + (if Present(converted, a) then [AngleEntry(a, converted[Name(a)], product, env)] else [])
  {
    assert (angles + [a])[..|angles|] == angles;
  }

  /** The angle loop: every angle in order, skipping those without a converted photo. */
  method ProcessAngles(converted: map<string, string>, product: string, env: Env) returns (results: seq<TryOnResult>)
    ensures results == Assemble(converted, product, env, Angles)
  {
    results := [];
    var i := 0;
    while i < |Angles|
      invariant 0 <= i <= |Angles|
      invariant results == Assemble(converted, product, env, Angles[..i])
    {
      var a := Angles[i];
      assert Angles[..i + 1] == Angles[..i] + [a];
      AssembleSnoc(converted, product, env, Angles[..i], a);
      if Present(converted, a) {
        var entry := ProcessAngle(a, converted[Name(a)], product, env);
        results := results + [entry];
      }
      i := i + 1;
    }
    assert Angles[..i] == Angles;
  }

  /** POST: validation, normalisation, product selection, the angle loop and the final check. */
  method Post(req: Request, env: Env) returns (response: Response)
    ensures response == Handle(req, env)
  {
    if req.userPhotos.None? {
      return Error(400, ErrUserPhotos);
    }
    if !Truthy(req.productImage) && !Truthy(req.productUrl) {
      return Error(400, ErrProduct);
    }
    if !Truthy(env.apiToken) {
      return Error(500, ErrToken);
    }
    var converted := ConvertPhotos(req.userPhotos.value, env);
    assert converted == ConvertedPhotos(req.userPhotos.value, env);
    var product := SelectProduct(req, env);
    if product.Failure? {
      return product.error;
    }
    var results := ProcessAngles(converted, product.value, env);
    if |results| == 0 {
      return Error(500, ErrNoResults);
    }
    return Ok(results);
  }
}

=== FILE: upload.dfy ===
/**
 * The upload page: the product is either a URL or an uploaded image, never both; Generate
 * reads the stored body photos, posts the request, and saves the results on success.
 */
module Upload {
  import opened Wrappers
  import opened Text
  import opened App
  import opened Db
  import opened TryOn

  /** `fileToBase64`: the data URL a FileReader produces for a file. */
  type Reader = File -> string

  /** A FileReader data URL always starts with "data:". */
  ghost predicate ValidReader(read: Reader) {
    forall f :: StartsWith(read(f), "data:")
  }

  /** What the page sees of the POST: a reply with `ok` and the `results` field, or a thrown error. */
  datatype ApiReply = Replied(ok: bool, results: Option<seq<TryOnResult>>) | NetworkFailure

  type Api = Request -> ApiReply

  /** How `handleGenerate` ends. */
  datatype GenerateOutcome =
    | NoProduct                                                 // alert, nothing else
    | PhotosMissing                                             // thrown before any request
    | Failed(sent: Request)                                     // request made, nothing saved
    | Saved(sent: Request, results: Option<seq<TryOnResult>>)   // results saved, go to /results

  /** `userPhotos`: every stored angle's file as a data URL. */
  function EncodedPhotos(files: map<string, File>, read: Reader): (m: map<string, string>)
    ensures m.Keys == files.Keys
  {
    map k | k in files :: read(files[k])
  }

  /** The JSON body; `x || null` turns an empty string into null. */
  function RequestBody(files: map<string, File>, url: string, image: Option<File>, read: Reader): (r: Request)
    ensures r.userPhotos.Some? && r.userPhotos.value.Keys == files.Keys
    ensures r.productUrl.Some? ==> r.productUrl.value != ""
    ensures r.productImage.Some? ==> r.productImage.value != ""
  {
    var imageData := if image.Some? then read(image.value) else "";
    Request(
      Some(EncodedPhotos(files, read)),
      if url != "" then Some(url) else None,
      if imageData != "" then Some(imageData) else None)
  }

  /** `handleGenerate` as a function of the page state, the stored photos and the API. */
  function Generate(url: string, image: Option<File>, photos: map<string, PhotoRecord>, read: Reader, api: Api): (r: GenerateOutcome)
    requires KeyedByAngle(photos)
    ensures r.Saved? ==> api(r.sent).Replied? && api(r.sent).ok && r.results == api(r.sent).results
    ensures r.Failed? ==> api(r.sent).NetworkFailure? || !api(r.sent).ok
  {
    if url == "" && image.None? then NoProduct
    else if |AllFiles(photos)| < 4 then PhotosMissing
    else
      var req := RequestBody(AllFiles(photos), url, image, read);
      match api(req)
      case NetworkFailure => Failed(req)
      case Replied(ok, results) => if !ok then Failed(req) else Saved(req, results)
  }

  // ---------------------------------------------------------------- properties

  /** No product, or fewer than four stored photos, means no request is made. */
  lemma NoRequestWithoutInputs(url: string, image: Option<File>, photos: map<string, PhotoRecord>, read: Reader, api: Api)
    requires KeyedByAngle(photos)
    ensures url == "" && image.None? <==> Generate(url, image, photos, read, api) == NoProduct
    ensures (url != "" || image.Some?) && |photos| < 4 <==> Generate(url, image, photos, read, api) == PhotosMissing
  {
    assert AllFiles(photos).Keys == photos.Keys;
  }

  /** Results are saved exactly when the reply is ok. */
  lemma SavedOnlyWhenOk(url: string, image: Option<File>, photos: map<string, PhotoRecord>, read: Reader, api: Api)
    requires KeyedByAngle(photos)
    requires url != "" || image.Some?
    requires |photos| >= 4
    ensures var req := RequestBody(AllFiles(photos), url, image, read);
      Generate(url, image, photos, read, api).Saved? <==> api(req).Replied? && api(req).ok
  {
    assert AllFiles(photos).Keys == photos.Keys;
  }

  /**
   * Every request the page sends gets past the handler's first two checks: the photos are
   * present, and a product image or URL is given.
   */
  lemma SentRequestPassesValidation(url: string, image: Option<File>, photos: map<string, PhotoRecord>, read: Reader, api: Api)
    requires KeyedByAngle(photos) && ValidReader(read)
    requires Generate(url, image, photos, read, api).Failed? || Generate(url, image, photos, read, api).Saved?
    ensures var req := Generate(url, image, photos, read, api).sent;
      && req.userPhotos.Some?
      && req.userPhotos.value.Keys == photos.Keys
      && (Truthy(req.productImage) || Truthy(req.productUrl))
  {
    if image.Some? {
      var d := read(image.value);
      assert StartsWith(d, "data:");
      assert d != "";
    }
  }

  /** Empty fields are sent as null, non-empty ones as they are. */
  lemma EmptyFieldsBecomeNull(files: map<string, File>, url: string, image: Option<File>, read: Reader)
    requires ValidReader(read)
    ensures var req := RequestBody(files, url, image, read);
      && (req.productUrl.None? <==> url == "")
      && (req.productUrl.Some? ==> req.productUrl.value == url)
      && (req.productImage.None? <==> image.None?)
      && (image.Some? ==> req.productImage == Some(read(image.value)))
  {
    if image.Some? {
      assert StartsWith(read(image.value), "data:");
    }
  }

  // ---------------------------------------------------------------- the page

  /** The `for ... of Object.entries(userPhotoFiles)` loop. */
  method EncodePhotos(files: map<string, File>, read: Reader) returns (encoded: map<string, string>)
    ensures encoded == EncodedPhotos(files, read)
  {
    encoded := map[];
    var remaining := files.Keys;
    while remaining != {}
      invariant remaining <= files.Keys
      invariant encoded.Keys == files.Keys - remaining
      invariant forall k :: k in encoded ==> encoded[k] == read(files[k])
      decreases remaining
    {
      var angle :| angle in remaining;
      encoded := encoded[angle := read(files[angle])];
      remaining := remaining - {angle};
    }
  }

  class UploadPage {
    var productUrl: string
    var productImage: Option<File>
    /** The object URL shown as preview; modelled as the file it shows. */
    var imagePreview: Option<File>
    var hasPhotos: bool

    /** A URL and an uploaded image are never both set, and the preview shows the image. */
    ghost predicate Valid()
      reads this
    {
      && (productUrl != "" ==> productImage.None?)
      && imagePreview == productImage
    }

    constructor ()
      ensures productUrl == "" && productImage.None? && imagePreview.None? && !hasPhotos
      ensures Valid()
    {
      productUrl := "";
      productImage := None;
      imagePreview := None;
      hasPhotos := false;
    }

    /** The mount effect: fewer than four stored photos sends the user back to onboarding. */
    method CheckPhotos(store: PhotoStore) returns (redirect: Option<Route>)
      requires store.Valid()
      modifies this
      ensures redirect == (if |store.records| < 4 then Some(OnboardingPage) else None)
      ensures hasPhotos == (old(hasPhotos) || |store.records| >= 4)
      ensures productUrl == old(productUrl) && productImage == old(productImage) && imagePreview == old(imagePreview)
    {
      var photos := store.GetAllPhotos();
      assert photos.Keys == store.records.Keys;
      if |photos| < 4 {
        return Some(OnboardingPage);
      }
      hasPhotos := true;
      return None;
    }

    /** `handleImageUpload`: a chosen file becomes the product and clears the URL. */
    method HandleImageUpload(file: Option<File>)
      requires Valid()
      modifies this
      ensures Valid()
      ensures file.None? ==> productUrl == old(productUrl) && productImage == old(productImage)
      ensures file.Some? ==> productImage == file && imagePreview == file && productUrl == ""
      ensures hasPhotos == old(hasPhotos)
    {
      if file.None? {
        return;
      }
      productImage := file;
      imagePreview := file;
      productUrl := "";
    }

    /** `handleUrlChange`: a non-empty URL clears the image; an empty one leaves it. */
    method HandleUrlChange(value: string)
      requires Valid()
      modifies this
      ensures Valid()
      ensures productUrl == value
      ensures value != "" ==> productImage.None? && imagePreview.None?
      ensures value == "" ==> productImage == old(productImage) && imagePreview == old(imagePreview)
      ensures hasPhotos == old(hasPhotos)
    {
      productUrl := value;
      if value != "" {
        productImage := None;
        imagePreview := None;
      }
    }

    /** The remove button on the preview. */
    method RemoveImage()
      requires Valid()
      modifies this
      ensures Valid()
      ensures productImage.None? && imagePreview.None? && productUrl == old(productUrl)
      ensures hasPhotos == old(hasPhotos)
    {
      productImage := None;
      imagePreview := None;
    }

    /** `handleClearPhotos`: when confirmed, empties the photo store and returns to onboarding. */
    method HandleClearPhotos(confirmed: bool, store: PhotoStore) returns (next: Option<Route>)
      modifies store
      ensures confirmed ==> store.records == map[] && next == Some(OnboardingPage)
      ensures !confirmed ==> store.records == old(store.records) && next.None?
    {
      next := None;
      if confirmed {
        store.ClearAllPhotos();
        next := Some(OnboardingPage);
      }
    }

    /** `handleGenerate`; `now` is the time of the save. */
    method HandleGenerate(photoStore: PhotoStore, resultsStore: ResultsStore, read: Reader, api: Api, now: int)
      returns (outcome: GenerateOutcome)
      requires photoStore.Valid() && resultsStore.Valid()
      modifies resultsStore
      ensures resultsStore.Valid()
      ensures outcome == Generate(productUrl, productImage, photoStore.records, read, api)
      ensures outcome.Saved? ==>
        resultsStore.records == PutResults(old(resultsStore.records), ResultsRecord(LatestKey, outcome.results, now))
      ensures !outcome.Saved? ==> resultsStore.records == old(resultsStore.records)
    {
      if productUrl == "" && productImage.None? {
        return NoProduct;
      }
      var userPhotoFiles := photoStore.GetAllPhotos();
      if |userPhotoFiles| < 4 {
        return PhotosMissing;
      }
      var userPhotos := EncodePhotos(userPhotoFiles, read);
      var productImageData := "";
      if productImage.Some? {
        productImageData := read(productImage.value);
      }
      var req := Request(
        Some(userPhotos),
        if productUrl != "" then Some(productUrl) else None,
        if productImageData != "" then Some(productImageData) else None);
      assert req == RequestBody(AllFiles(photoStore.records), productUrl, productImage, read);
      var reply := api(req);
      if reply.NetworkFailure? || !reply.ok {
        return Failed(req);
      }
      resultsStore.SaveTryonResults(reply.results, now);
      return Saved(req, reply.results);
    }
  }
}

=== FILE: wrappers.dfy ===
/** Option and Result, used for JavaScript's null/undefined and for early returns. */
module Wrappers {

  datatype Option<+T> = None | Some(value: T)

  datatype Result<+R, +E> = Success(value: R) | Failure(error: E)
}
